=== FILE: README.md ===
# Parallel chunked file diff — Dafny model of the comparison core

This project models the comparison core of a two-variant file-diff tool.

**Line variant (`main.cpp`).**

- `read_file` splits each file into lines with `std::getline`.
- `compare_files` cuts file A's line range into chunks of 1000 lines.
- One worker per chunk compares line `j` of A with line `j` of B. It renders
  `+`/`-` records and character markers into a private buffer and counts the
  differing lines.
- Finished buffers are emitted whole, under a lock, in the order the workers
  finish.
- `create_diff_marker` builds the `^` marker. `print_diff_line` and
  `print_marker_line` lay out the report.

**Byte variant (`rust_compare/src/main.rs`).**

- `compare_files` splits `[0, max(|d1|, |d2|))` into chunks with
  `step_by(chunk_size)`.
- `find_diffs` scans each chunk byte by byte. It records `(line, position)`
  at each mismatch and skips to the next `'\n'` of either file.
- Every call adds its count, plus the length gap of the two files, to a
  shared total. The verdict is "Files are identical." when the total is zero.
- `print_diffs` shows the line of file 1 that encloses each difference.

The concurrency is only a fork-join over disjoint chunks, so it is modelled
sequentially:

- In the line variant, the order in which workers finish is a parameter
  (`LineDiff.IsCompletionOrder`, any permutation of the chunks). The total is
  proved to be the same for every order.
- In the byte variant, rayon may run the chunk closures in any order; the
  model runs them in plan order. That changes nothing: the indexed `collect`
  keeps the lists in chunk order whatever order they finish in, and the
  shared total is a sum of additions.

Modules (one file each):

- `Chunking` (`chunking.dfy`): chunk descriptors, and what it means for a list
  of them to tile a range.
- `DiffMarker` (`marker.dfy`): `create_diff_marker`.
- `ReportFormat` (`report_format.dfy`): `to_string`, `setw`, and the two
  print helpers.
- `LineSplit` (`line_split.dfy`): the `read_file` split rule on in-memory text.
- `LineDiff` (`line_diff.dfy`): the line variant's chunk plan, worker and
  driver.
- `ByteScan` (`byte_scan.dfy`): `find_diffs` and the `print_diffs` line bounds.
- `ByteCompare` (`byte_compare.dfy`): the byte variant's chunk plan, driver,
  verdict and panics.

Points where the code behaves in ways that are easy to misread:

- **No size short-circuit.** The byte variant does not stop early when the
  file sizes differ. Each chunk adds `|d1|.abs_diff(|d2|)` to the total
  (`ByteCompare.TotalChargesGapPerChunk`), and files of different sizes are
  still compared byte by byte.
- **Planned over the longer file.** The byte variant's chunks cover
  `[0, max(|d1|, |d2|))`, not file 1's length alone.
- **Absolute line numbers.** The byte variant's line counter starts at
  1 + the number of `'\n'` bytes of file 1 before the chunk. It is
  file-absolute, not reset to 1 per chunk
  (`ByteScan.ChunkFirstLineExact`).
- **Panics.** `data1[..start]` panics when a chunk starts past the end of
  file 1 (`ByteCompare.PanicIff`). `print_diffs` slices file 2 with file 1's
  line bounds, which panics when that line runs past the end of file 2
  (`ByteScan.PrintPanicsWhenSecondShorter`).
- **Dead deletion branch.** In the line variant the "deletion" branch can
  never be reached: every visited `j` is below `|A|` (`LineDiff.RenderRecord`).
- **Trailing lines of B.** Lines of B at indices `>= |A|` are never visited.
  Their contents never matter, and how many there are matters only through
  the width of the line-number field, which is the digit count of
  `max(|A|, |B|)` (`LineDiff.TrailingLinesOfBIgnored`,
  `LineDiff.TrailingLineCountWidensField`).
- **Marker one column off.** The marker line is indented `Width + 3` columns,
  but the line text starts at column `Width + 4`. So the marker sits one
  column to the left of the text it marks
  (`ReportFormat.MarkerOneColumnLeftOfText`). This is kept as written.

## Model

| member | source | states |
|---|---|---|
| DiffMarker.Carets | main.cpp:67 | std::string(n, '^'): n carets and nothing else |
| DiffMarker.Spaces | main.cpp:43 | std::string(n, ' '): n spaces and nothing else |
| DiffMarker.Marker | main.cpp:25-36 | reference marker of two strings; its length is max(\|s1\|, \|s2\|) |
| DiffMarker.MarkerAt | main.cpp:26-34 | position i is a space iff both strings have a character there and they are equal, otherwise a caret |
| DiffMarker.MarkerShape | main.cpp:26-34 | inside the common prefix: caret iff the characters differ, space iff they are equal; every position past the shorter string is a caret |
| DiffMarker.MarkerSymmetric | main.cpp:25-36 | swapping the two strings gives the same marker |
| DiffMarker.MarkerBlankIffEqual | main.cpp:25-36 | the marker is all spaces exactly when the strings are equal |
| DiffMarker.CreateDiffMarker | main.cpp:25-36 | the buffer, filled in place over the prefix and then caret-filled past it, equals the reference marker |
| ReportFormat.ToDecimal | main.cpp:39 | std::to_string gives a non-empty digit string with no leading zero unless the value is 0 |
| ReportFormat.DecimalRoundTrip | main.cpp:39 | reading the printed digits back gives the number |
| ReportFormat.DigitCountMonotone | main.cpp:39 | a larger number never has fewer digits |
| ReportFormat.DigitCountBounds | main.cpp:39 | a number printed with k digits lies below 10^k, and at or above 10^(k-1) when k > 1 (0 has one digit) |
| ReportFormat.Width | main.cpp:39 | the line-number field is as wide as the decimal digit count of max_line_num: at least 1, and the smallest w with max_line_num < 10^w |
| ReportFormat.PadLeft | main.cpp:39 | the field setw produces is as wide as the larger of the value and the width |
| ReportFormat.PadLeftShape | main.cpp:39 | the field ends with the value itself, after spaces only |
| ReportFormat.PaddedNumber | main.cpp:39 | a line number up to the maximum fills the field exactly: Width columns, spaces then its digits |
| ReportFormat.DiffLine | main.cpp:38-40 | print_diff_line: the prefix and a space, then the padded number, ": " and the text, Max(digits, Width) + 4 + \|text\| characters in all (DiffLineLayout gives each column) |
| ReportFormat.MarkerLine | main.cpp:42-44 | print_marker_line: Width + 3 spaces, then the marker itself |
| ReportFormat.DiffLineLayout | main.cpp:38-40 | a diff line is the prefix, a space, the number right-aligned in Width columns, ": ", then the text from column Width + 4 |
| ReportFormat.MarkerOneColumnLeftOfText | main.cpp:38-44 | marker character k is in column Width + 3 + k, but text character k is in column Width + 4 + k |
| Chunking.NextIndex | main.cpp:19 | the delimiter search of getline (and the line end of print_diffs, rust_compare/src/main.rs:50): the first occurrence at or after a position, or the end |
| LineSplit.SplitLinesHaveNoNewline | main.cpp:19-20 | no line that getline yields contains '\n' |
| LineSplit.SplitJoin | main.cpp:15-23 | splitting lines joined with '\n' gives the lines back |
| LineSplit.JoinSplit | main.cpp:15-23 | joining the split lines gives the text back, with a '\n' added when the last line had none |
| LineSplit.SplitLinesFrom | main.cpp:19-20 | one getline call takes the text up to the next '\n' and resumes after it |
| LineSplit.GetLine | main.cpp:19-20 | the character loop of one getline call yields the next line and the resume position |
| LineSplit.ReadLines | main.cpp:15-23 | the read loop collects exactly SplitLines of the contents, the split rule that SplitJoin, JoinSplit and SplitLinesHaveNoNewline characterise |
| LineDiff.DiffersIffMarked | main.cpp:63 | Differs, the worker's test j >= \|B\| \|\| A[j] != B[j], holds exactly when B has no line j or the marker of B[j] against A[j] is not blank |
| LineDiff.NumChunks | main.cpp:51 | num_chunks is ceil(\|A\| / 1000): the fewest chunks of 1000 lines that cover \|A\| lines |
| LineDiff.LinePlan | main.cpp:55-58 | one chunk per worker; chunk i starts at line i * 1000 and ends inside [0, \|A\|) |
| LineDiff.LineChunk | main.cpp:57-58 | every planned chunk is non-empty, at most 1000 lines, and inside [0, \|A\|) |
| LineDiff.LinePlanPartition | main.cpp:50-58 | the ceil(\|A\|/1000) chunks tile [0, \|A\|); line j lies in chunk j / 1000 |
| LineDiff.LineOfChunk | main.cpp:55-58 | line j lies in chunk i exactly when i == j / 1000, and that chunk exists |
| LineDiff.RecordLines | main.cpp:63-75 | the lines one index adds to the buffer: none for an equal line, 2 for an addition, 3 for a modification |
| LineDiff.RecordIffDiffers | main.cpp:63-76 | a record is rendered exactly for the lines that are counted |
| LineDiff.AdditionRecord | main.cpp:65-67 | an addition is a "+" line with the right-aligned number and A's line, then \|A[j]\| carets indented Width + 3 |
| LineDiff.ModificationRecord | main.cpp:71-74 | a modification is "-" with B's line, "+" with A's line, then the marker of B's line against A's line |
| LineDiff.CountDiffs | main.cpp:62-64 | the worker's running count over a range never exceeds the range's length |
| LineDiff.RenderSize | main.cpp:62-76 | RenderRange, the worker's buffer, holds two or three lines per counted line |
| LineDiff.CountIsDiffSetSize | main.cpp:62-64 | the running count equals the number of differing indices |
| LineDiff.NoRecordsIffNoDiffs | main.cpp:62-76 | a range renders no record exactly when none of its lines differs |
| LineDiff.CompareChunk | main.cpp:57-77 | the worker's count is the number of j in the chunk with j >= \|B\| or A[j] != B[j], and its buffer is their records in ascending order, two or three lines per counted line |
| LineDiff.RenderRecord | main.cpp:65-75 | for a differing line the branches produce exactly its record: 2 lines for an addition, 3 for a modification; the deletion branch is proved unreachable |
| LineDiff.FinishChunk | main.cpp:55-64 | finishing a new chunk adds exactly its differing lines, disjoint from those already counted |
| LineDiff.FinishStep | main.cpp:62-80 | the k-th chunk to finish was not finished before; it adds its own count to the total and its buffer to the end of the output |
| LineDiff.AllChunksDone | main.cpp:55-64 | once all chunks have finished, every differing line has been counted |
| LineDiff.CompareFiles | main.cpp:46-87 | for any completion order, the total is the number of j < \|A\| with j >= \|B\| or A[j] != B[j]; the output is ScheduledReport, the chunk buffers in completion order, with two or three lines per counted line |
| LineDiff.PlanOrderIsCompletionOrder | main.cpp:79-86 | emitting in chunk order is one of the possible completion orders |
| LineDiff.PlanOrderReport | main.cpp:55-80 | emitting buffers in chunk order gives the single-pass rendering of [0, \|A\|) |
| LineDiff.IdenticalFilesNoRecords | main.cpp:62-64 | identical files render nothing and count nothing |
| LineDiff.NoDifferencesIffPrefix | main.cpp:51-64 | the total is 0 exactly when A is a prefix of B |
| LineDiff.TrailingLinesOfBIgnored | main.cpp:52-63 | the contents of B's lines past \|A\| never matter: the count is the same for any such lines, and the records are the same whenever the line-number width Width(max(\|A\|, \|B\|)) is |
| LineDiff.TrailingLineCountWidensField | main.cpp:52-67 | how many lines B has past \|A\| does matter through that width: A = ["x"] against ["y"] and against "y" plus nine more lines renders different records |
| ByteScan.SkipEnd | rust_compare/src/main.rs:28-30 | the skip stops at the first position where either file holds '\n', or at the end |
| ByteScan.Scan | rust_compare/src/main.rs:24-35 | recorded positions lie in the scanned range |
| ByteScan.ScanWithin | rust_compare/src/main.rs:25-26 | every recorded position is a mismatch |
| ByteScan.ScanIncreasing | rust_compare/src/main.rs:24-34 | recorded positions strictly increase |
| ByteScan.ScanEmptyIffAgree | rust_compare/src/main.rs:24-35 | nothing is recorded iff the files agree on the range |
| ByteScan.ScanFirst | rust_compare/src/main.rs:24-35 | the first record is the first mismatch, with the exact line |
| ByteScan.ScanAfterMismatch | rust_compare/src/main.rs:25-34 | after a mismatch the next record is the first mismatch after the skip point |
| ByteScan.ScanNext | rust_compare/src/main.rs:25-34 | between consecutive records the files agree from one past the skip's newline; nothing before that newline is recorded |
| ByteScan.ScanNextAfterSkip | rust_compare/src/main.rs:25-34 | the same property for a record that follows a mismatch skip |
| ByteScan.ScanLineBounds | rust_compare/src/main.rs:19-32 | a recorded line lies between the start line and the start line plus the newlines before the position |
| ByteScan.ScanLineBoundsAfterMismatch | rust_compare/src/main.rs:25-34 | the same bounds for the records of a scan that starts at a mismatch |
| ByteScan.CountNewlinesZeroIff | rust_compare/src/main.rs:19 | CountNewlines, the number of '\n' bytes, is zero exactly when there is none |
| ByteScan.CountNewlinesSplit | rust_compare/src/main.rs:19 | newline counts add up over adjacent ranges |
| ByteScan.ScanNextLine | rust_compare/src/main.rs:24-34 | every record after the first has line = the previous record's line + the '\n' bytes of file 1 from one past the skip's stopping point to its position; the '\n' that ends a skip is never counted |
| ByteScan.LineCounterLagsAfterMismatch | rust_compare/src/main.rs:28-34 | the newline that ends a skip is not counted: "a\nb" against "c\nd" reports both mismatches on line 1 |
| ByteScan.ChunkScan | rust_compare/src/main.rs:19-24 | what one find_diffs call records lies inside [start, min(end, \|d1\|, \|d2\|)) and is a mismatch |
| ByteScan.ChunkScanEmpty | rust_compare/src/main.rs:24-35 | a call records nothing iff the files agree on the part of its range inside both files |
| ByteScan.ChunkFirstLineExact | rust_compare/src/main.rs:19-32 | the first record of a call has the exact file-absolute line number |
| ByteScan.SkipToNewline | rust_compare/src/main.rs:28-30 | the skip loop stops where SkipEnd says |
| ByteScan.FindDiffs | rust_compare/src/main.rs:17-44 | with start <= \|d1\|, it returns the scan of [start, min(end, \|d1\|, \|d2\|)) from line 1 + the newlines before start, and adds its count plus the length gap |
| ByteScan.LineStart | rust_compare/src/main.rs:49 | one past the last '\n' before the position, or 0 |
| ByteScan.ExcerptOf | rust_compare/src/main.rs:49-52 | panics iff the line end is past the end of file 2; otherwise lo <= pos <= hi and file 1's excerpt holds no '\n' |
| ByteScan.PrintDiffs | rust_compare/src/main.rs:46-55 | a successful print has one excerpt per difference |
| ByteScan.PrintDiffsSome | rust_compare/src/main.rs:46-55 | printing succeeds iff no excerpt panics |
| ByteScan.PrintDiffsAt | rust_compare/src/main.rs:47-52 | excerpt k of a successful print is the one for difference k |
| ByteScan.PrintPanicsWhenSecondShorter | rust_compare/src/main.rs:49-52 | files "abc" and "ax": printing the difference at position 1 panics |
| ByteScan.PrintNeverPanicsWhenFirstNotLonger | rust_compare/src/main.rs:46-55 | printing never panics when file 1 is not longer than file 2 |
| ByteCompare.ChunkSize | rust_compare/src/main.rs:62 | the chunk size is the larger of 1 MiB and \|d1\| / threads |
| ByteCompare.ByteChunks | rust_compare/src/main.rs:65-69 | the step_by plan is empty iff the start is at or past max_len |
| ByteCompare.ByteChunkAt | rust_compare/src/main.rs:65-69 | chunk i starts at i * c and ends at min(i * c + c, max_len), and exists iff i * c < max_len |
| ByteCompare.ByteChunksTile | rust_compare/src/main.rs:65-69 | the chunks tile the range with chunks of at most c bytes |
| ByteCompare.PlanPartition | rust_compare/src/main.rs:62-69 | Plan, the step_by plan of a run, partitions [0, max(\|d1\|, \|d2\|)) with chunk i = [i * c, min(i * c + c, max_len)) |
| ByteCompare.StartsInFirstIffLast | rust_compare/src/main.rs:19 | StartsInFirst, the condition under which no data1[..start] panics, holds for a plan exactly when its last chunk starts within file 1 |
| ByteCompare.Collected | rust_compare/src/main.rs:65-72 | one collected list per chunk |
| ByteCompare.CollectedAt | rust_compare/src/main.rs:65-72 | list k is what find_diffs returned for chunk k |
| ByteCompare.CompareOutcome | rust_compare/src/main.rs:65-82 | the run's result: a Differences verdict carries a non-zero total and one list per chunk of the plan |
| ByteCompare.CompareBytes | rust_compare/src/main.rs:57-82 | the chunk loop panics, reports identical, or returns the total and lists, exactly as the reference outcome |
| ByteCompare.PanicOutcome | rust_compare/src/main.rs:19 | a chunk that starts past the end of file 1 makes the run panic |
| ByteCompare.TotalChargesGapPerChunk | rust_compare/src/main.rs:38-41 | Total, the shared counter after the calls, is the recorded differences plus the length gap once per chunk |
| ByteCompare.RecordedZero | rust_compare/src/main.rs:27 | nothing is recorded iff every chunk's list is empty |
| ByteCompare.SecondNotLongerNeverPanics | rust_compare/src/main.rs:19 | when file 2 is not longer, no chunk starts past file 1 |
| ByteCompare.IdenticalIffEqual | rust_compare/src/main.rs:74-76 | "Files are identical." is reported exactly when the files are equal |
| ByteCompare.EqualFilesIdentical | rust_compare/src/main.rs:74-76 | equal files are reported identical |
| ByteCompare.IdenticalMeansEqual | rust_compare/src/main.rs:74-76 | a run reported identical compared equal files |
| ByteCompare.PrefixTotalIsGapTimesChunks | rust_compare/src/main.rs:38-41 | when file 2 is a proper prefix of file 1, the total is the number of chunks times the gap, with no recorded positions |
| ByteCompare.NextMultiple | rust_compare/src/main.rs:67 | the first chunk start above n lies in (n, n + c] |
| ByteCompare.MultipleAbove | rust_compare/src/main.rs:67 | no chunk start above n comes before NextMultiple(n, c) |
| ByteCompare.PanicIff | rust_compare/src/main.rs:19 | the run panics iff a chunk start falls between \|d1\| and \|d2\|; never when file 2 is not longer, always when it is longer by more than a chunk |
| ByteCompare.CollectedInFileOrder | rust_compare/src/main.rs:65-81 | every position in an earlier chunk's list comes before every position in a later one |
| ByteCompare.PrintAll | rust_compare/src/main.rs:79-81 | a successful print of all lists has one result per list |
| ByteCompare.PrintAllSome | rust_compare/src/main.rs:79-81 | printing all lists succeeds iff printing each one does |
| ByteCompare.PrintAllAt | rust_compare/src/main.rs:79-81 | part k of a successful print is the print of list k |
| Chunking.AbsDiff | rust_compare/src/main.rs:39 | usize::abs_diff: the smaller length plus the gap is the larger |
| ByteCompare.ReportPrintsWhenFirstNotLonger | rust_compare/src/main.rs:79-81 | when file 1 is not longer, every reported position is inside file 1 and printing the report never panics |

## Left out

- File I/O: `ifstream` and memory-mapping are not modelled; the files'
  contents are parameters. Only the split rule of `read_file` is modelled
  (`LineSplit`), on an in-memory string.
- Threads, the mutex, atomics, rayon's parallel iterator and `Arc`. Workers
  run one after another. For the line variant the completion order is a
  parameter; the buffers are emitted whole, which the lock guarantees.
- `rayon::current_num_threads()` is a parameter `threads >= 1`.
- Console output, `String::from_utf8_lossy`, and the final "Total
  differences" and timing lines. Reports are modelled as sequences of
  lines or excerpts, and bytes are not decoded.
- Timing (`Instant`, `as_secs_f64`): clock and floating-point work.
- Command-line handling in both `main` functions: argument count, existence
  checks and exit codes.
- generate_test_files.py is not part of this model. It writes random test
  data.
- Integer width: `size_t` and `usize` are unbounded here. `start + chunk_size`
  and the atomic counters cannot overflow for files that fit in memory.
- Bytes versus characters: C++ `std::string` holds bytes, and
  `create_diff_marker` marks bytes. A Dafny `char` here stands for one byte
  of a line, so a multi-byte UTF-8 character of a line gets one caret per
  byte, as in the program.
- `std::getline` on a stream that fails for reasons other than end of file
  is not modelled.

=== FILE: byte_compare.dfy ===
/** The driver of the byte-level variant (compare_files): the chunk plan
    (0..max_len).step_by(chunk_size), one find_diffs call per chunk, the
    shared total and the per-chunk lists collected in chunk order, and the
    final verdict. The parallel map is run here as a loop over the chunks in
    order; the shared total only ever receives additions, so its final value
    does not depend on the order the chunks finish in. */
module ByteCompare {
  import opened Chunking
  import opened ByteScan

  /** 1 << 20: the smallest chunk, in bytes. */
  const CHUNK_SIZE: nat := 0x10_0000

  /** max(CHUNK_SIZE, data1.len() / current_num_threads()). */
  function ChunkSize(len1: nat, threads: nat): (c: nat)
    requires threads >= 1
    ensures c >= CHUNK_SIZE && c >= len1 / threads
    ensures c == CHUNK_SIZE || c == len1 / threads
  {
    Max(CHUNK_SIZE, len1 / threads)
  }

  /** The chunks from `from` on: starts from, from + c, ... strictly below
      maxLen, each ending at min(start + c, maxLen). */
  function ByteChunks(from: nat, maxLen: nat, c: nat): (cs: seq<Chunk>)
    requires c >= 1
    ensures from >= maxLen <==> cs == []
    decreases maxLen - from
  {
    if from >= maxLen then [] else [Chunk(from, Min(from + c, maxLen))] + ByteChunks(from + c, maxLen, c)
  }

  /** Chunk i of the plan from `from` starts at from + i * c, and it exists
      exactly when that start is below maxLen. */
  lemma {:induction false} ByteChunkAt(from: nat, maxLen: nat, c: nat, i: nat)
    requires c >= 1
    ensures var cs := ByteChunks(from, maxLen, c);
      && (i < |cs| <==> from + i * c < maxLen)
      && (i < |cs| ==> cs[i] == Chunk(from + i * c, Min(from + i * c + c, maxLen)))
    decreases maxLen - from
  {
    if from < maxLen && i > 0 {
      ByteChunkAt(from + c, maxLen, c, i - 1);
      assert from + c + (i - 1) * c == from + i * c;
    }
  }

  /** The plan tiles [from, maxLen) with chunks of at most c bytes. */
  lemma {:induction false} ByteChunksTile(from: nat, maxLen: nat, c: nat)
    requires c >= 1 && from <= maxLen
    ensures Tiles(ByteChunks(from, maxLen, c), from, maxLen, c)
    decreases maxLen - from
  {
    if from < maxLen {
      var cs := ByteChunks(from, maxLen, c);
      if from + c < maxLen {
        ByteChunksTile(from + c, maxLen, c);
      }
      assert cs[1..] == ByteChunks(from + c, maxLen, c);
    }
  }

  /** The chunks of one run: the plan over [0, max(|d1|, |d2|)). */
  function Plan(d1: seq<byte>, d2: seq<byte>, threads: nat): seq<Chunk>
    requires threads >= 1
  {
    ByteChunks(0, Max(|d1|, |d2|), ChunkSize(|d1|, threads))
  }

  /** The plan partitions [0, max(|d1|, |d2|)); chunk i starts at i * c. */
  lemma PlanPartition(d1: seq<byte>, d2: seq<byte>, threads: nat, i: nat)
    requires threads >= 1
    ensures Partition(Plan(d1, d2, threads), Max(|d1|, |d2|), ChunkSize(|d1|, threads))
    ensures var cs, c := Plan(d1, d2, threads), ChunkSize(|d1|, threads);
      (i < |cs| <==> i * c < Max(|d1|, |d2|)) &&
      (i < |cs| ==> cs[i] == Chunk(i * c, Min(i * c + c, Max(|d1|, |d2|))))
  {
    ByteChunksTile(0, Max(|d1|, |d2|), ChunkSize(|d1|, threads));
    ByteChunkAt(0, Max(|d1|, |d2|), ChunkSize(|d1|, threads), i);
  }

  /** No chunk starts past the end of file 1, so no find_diffs call panics on
      data1[..start]. */
  predicate StartsInFirst(d1: seq<byte>, cs: seq<Chunk>)
  {
    forall k :: 0 <= k < |cs| ==> cs[k].start <= |d1|
  }

  /** Chunk starts of a tiling increase, so no chunk starts past file 1
      exactly when the last one does not. */
  lemma StartsInFirstIffLast(d1: seq<byte>, cs: seq<Chunk>, from: nat, total: nat, size: nat)
    requires Tiles(cs, from, total, size)
    ensures StartsInFirst(d1, cs) <==> cs == [] || cs[|cs| - 1].start <= |d1|
  {
    if cs != [] && cs[|cs| - 1].start <= |d1| {
      forall k | 0 <= k < |cs| - 1
        ensures cs[k].start <= |d1|
      {
        TilesWithin(cs, from, total, size, k);
        TilesDisjoint(cs, from, total, size, k, |cs| - 1);
      }
    }
  }

  /** The shared total after the calls for the chunks cs: each call adds its
      number of differences and, when the lengths differ, the length gap. */
  function Total(d1: seq<byte>, d2: seq<byte>, cs: seq<Chunk>): nat
    requires StartsInFirst(d1, cs)
    decreases |cs|
  {
    if cs == [] then 0
    else Total(d1, d2, cs[..|cs| - 1]) + |ChunkScan(d1, d2, cs[|cs| - 1].start, cs[|cs| - 1].end)| + AbsDiff(|d1|, |d2|)
  }

  /** The per-chunk lists, collected in chunk order. */
  function Collected(d1: seq<byte>, d2: seq<byte>, cs: seq<Chunk>): (r: seq<seq<Diff>>)
    requires StartsInFirst(d1, cs)
    ensures |r| == |cs|
    decreases |cs|
  {
    if cs == [] then [] else Collected(d1, d2, cs[..|cs| - 1]) + [ChunkScan(d1, d2, cs[|cs| - 1].start, cs[|cs| - 1].end)]
  }

  /** List k of the collected lists is what find_diffs returned for chunk k. */
  lemma {:induction false} CollectedAt(d1: seq<byte>, d2: seq<byte>, cs: seq<Chunk>, k: nat)
    requires StartsInFirst(d1, cs) && k < |cs|
    ensures Collected(d1, d2, cs)[k] == ChunkScan(d1, d2, cs[k].start, cs[k].end)
    decreases |cs|
  {
    if k < |cs| - 1 {
      var init := cs[..|cs| - 1];
      CollectedAt(d1, d2, init, k);
    }
  }

  /** The number of differences recorded over the chunks cs. */
  function Recorded(d1: seq<byte>, d2: seq<byte>, cs: seq<Chunk>): nat
    requires StartsInFirst(d1, cs)
    decreases |cs|
  {
    if cs == [] then 0 else Recorded(d1, d2, cs[..|cs| - 1]) + |ChunkScan(d1, d2, cs[|cs| - 1].start, cs[|cs| - 1].end)|
  }

  /** The outcome of one run: a panic in some find_diffs call, "Files are
      identical." when the total is zero, or the total and the lists. */
  datatype Outcome = Panicked | Identical | Differences(total: nat, diffs: seq<seq<Diff>>)

  function CompareOutcome(d1: seq<byte>, d2: seq<byte>, threads: nat): (r: Outcome)
    requires threads >= 1
    ensures r.Differences? ==> r.total > 0 && |r.diffs| == |Plan(d1, d2, threads)|
  {
    var cs := Plan(d1, d2, threads);
    if !StartsInFirst(d1, cs) then Panicked
    else if Total(d1, d2, cs) == 0 then Identical
    else Differences(Total(d1, d2, cs), Collected(d1, d2, cs))
  }

  /** compare_files with the chunks run one after another in plan order. */
  method CompareBytes(d1: seq<byte>, d2: seq<byte>, threads: nat) returns (outcome: Outcome)
    requires threads >= 1
    ensures outcome == CompareOutcome(d1, d2, threads)
  {
    var c := ChunkSize(|d1|, threads);
    var maxLen := Max(|d1|, |d2|);
    ghost var plan := Plan(d1, d2, threads);
    ghost var done: seq<Chunk> := [];
    var total := 0;
    var collected: seq<seq<Diff>> := [];
    var start := 0;
    while start < maxLen
      invariant PlanRest(done, start, maxLen, c, plan)
      invariant StartsInFirst(d1, done)
      invariant total == Total(d1, d2, done)
      invariant collected == Collected(d1, d2, done)
      decreases maxLen - start
    {
      ghost var ch := Chunk(start, Min(start + c, maxLen));
      NextChunk(done, start, maxLen, c, plan);
      if start > |d1| {
        PanicOutcome(d1, d2, threads, |done|);
        return Panicked;
      }
      var diffs, added := FindDiffs(d1, d2, start, Min(start + c, maxLen));
      ChunkStep(d1, d2, done, ch);
      total := total + added;
      collected := collected + [diffs];
      start := start + c;
      done := done + [ch];
    }
    assert done == plan by {
      assert PlanRest(done, start, maxLen, c, plan);
    }
    if total == 0 {
      outcome := Identical;
    } else {
      outcome := Differences(total, collected);
    }
  }

  /** A chunk of the plan that starts past the end of file 1 makes the run panic. */
  lemma PanicOutcome(d1: seq<byte>, d2: seq<byte>, threads: nat, i: nat)
    requires threads >= 1
    requires i < |Plan(d1, d2, threads)| && Plan(d1, d2, threads)[i].start > |d1|
    ensures CompareOutcome(d1, d2, threads) == Panicked
  {
    assert !StartsInFirst(d1, Plan(d1, d2, threads));
  }

  /** The chunks done so far, then the chunks from start on, make up the plan. */
  ghost predicate PlanRest(done: seq<Chunk>, start: nat, maxLen: nat, c: nat, plan: seq<Chunk>)
    requires c >= 1
  {
    done + ByteChunks(start, maxLen, c) == plan
  }

  /** After the chunks done, the chunk at start is the next one of the plan,
      and the plan goes on from start + c. */
  lemma NextChunk(done: seq<Chunk>, start: nat, maxLen: nat, c: nat, plan: seq<Chunk>)
    requires c >= 1 && start < maxLen
    requires PlanRest(done, start, maxLen, c, plan)
    ensures |done| < |plan| && plan[|done|] == Chunk(start, Min(start + c, maxLen))
    ensures PlanRest(done + [Chunk(start, Min(start + c, maxLen))], start + c, maxLen, c, plan)
  {
    var ch := Chunk(start, Min(start + c, maxLen));
    var rest := ByteChunks(start + c, maxLen, c);
    assert ByteChunks(start, maxLen, c) == [ch] + rest;
    assert plan[|done|] == ([ch] + rest)[0];
    assert done + ([ch] + rest) == (done + [ch]) + rest;
  }

  /** Running one more chunk extends the total and the collected lists by
      that chunk's call. */
  lemma ChunkStep(d1: seq<byte>, d2: seq<byte>, done: seq<Chunk>, ch: Chunk)
    requires StartsInFirst(d1, done) && ch.start <= |d1|
    ensures StartsInFirst(d1, done + [ch])
    ensures Total(d1, d2, done + [ch]) == Total(d1, d2, done) + |ChunkScan(d1, d2, ch.start, ch.end)| + AbsDiff(|d1|, |d2|)
    ensures Collected(d1, d2, done + [ch]) == Collected(d1, d2, done) + [ChunkScan(d1, d2, ch.start, ch.end)]
  {
    assert (done + [ch])[..|done|] == done;
  }

  /** The total is the recorded differences plus the length gap once per
      chunk, not once per run. */
  lemma {:induction false} TotalChargesGapPerChunk(d1: seq<byte>, d2: seq<byte>, cs: seq<Chunk>)
    requires StartsInFirst(d1, cs)
    ensures Total(d1, d2, cs) == Recorded(d1, d2, cs) + |cs| * AbsDiff(|d1|, |d2|)
    decreases |cs|
  {
    if cs != [] {
      var init := cs[..|cs| - 1];
      assert StartsInFirst(d1, init);
      TotalChargesGapPerChunk(d1, d2, init);
      MulSucc(|init|, AbsDiff(|d1|, |d2|));
    }
  }

  /** Nothing is recorded over cs exactly when every chunk's list is empty. */
  lemma {:induction false} RecordedZero(d1: seq<byte>, d2: seq<byte>, cs: seq<Chunk>)
    requires StartsInFirst(d1, cs)
    ensures Recorded(d1, d2, cs) == 0 <==> forall k :: 0 <= k < |cs| ==> ChunkScan(d1, d2, cs[k].start, cs[k].end) == []
    decreases |cs|
  {
    if cs != [] {
      var init := cs[..|cs| - 1];
      RecordedZero(d1, d2, init);
      assert forall k :: 0 <= k < |init| ==> init[k] == cs[k];
    }
  }

  /** When file 2 is not longer than file 1, the plan covers only [0, |d1|),
      so no chunk starts past the end of file 1. */
  lemma SecondNotLongerNeverPanics(d1: seq<byte>, d2: seq<byte>, threads: nat)
    requires threads >= 1
    requires |d2| <= |d1|
    ensures StartsInFirst(d1, Plan(d1, d2, threads))
  {
    var cs := Plan(d1, d2, threads);
    ByteChunksTile(0, Max(|d1|, |d2|), ChunkSize(|d1|, threads));
    forall k | 0 <= k < |cs|
      ensures cs[k].start <= |d1|
    {
      TilesWithin(cs, 0, Max(|d1|, |d2|), ChunkSize(|d1|, threads), k);
    }
  }

  /** The run reports "Files are identical." exactly when the two files are
      equal. */
  lemma IdenticalIffEqual(d1: seq<byte>, d2: seq<byte>, threads: nat)
    requires threads >= 1
    ensures CompareOutcome(d1, d2, threads) == Identical <==> d1 == d2
  {
    if d1 == d2 {
      EqualFilesIdentical(d1, threads);
    } else if CompareOutcome(d1, d2, threads) == Identical {
      IdenticalMeansEqual(d1, d2, threads);
    }
  }

  /** Equal files record nothing and have no gap, so the total is zero. */
  lemma EqualFilesIdentical(d: seq<byte>, threads: nat)
    requires threads >= 1
    ensures CompareOutcome(d, d, threads) == Identical
  {
    var cs := Plan(d, d, threads);
    SecondNotLongerNeverPanics(d, d, threads);
    forall k | 0 <= k < |cs|
      ensures ChunkScan(d, d, cs[k].start, cs[k].end) == []
    {
      ChunkScanEmpty(d, d, cs[k].start, cs[k].end);
    }
    RecordedZero(d, d, cs);
    TotalChargesGapPerChunk(d, d, cs);
  }

  /** A zero total leaves no length gap and no recorded position, and the
      chunks cover both files, so the files are equal. */
  lemma IdenticalMeansEqual(d1: seq<byte>, d2: seq<byte>, threads: nat)
    requires threads >= 1
    requires CompareOutcome(d1, d2, threads) == Identical
    ensures d1 == d2
  {
    var cs, c, maxLen := Plan(d1, d2, threads), ChunkSize(|d1|, threads), Max(|d1|, |d2|);
    ByteChunksTile(0, maxLen, c);
    TotalChargesGapPerChunk(d1, d2, cs);
    assert Recorded(d1, d2, cs) == 0 && |cs| * AbsDiff(|d1|, |d2|) == 0;
    RecordedZero(d1, d2, cs);
    if d1 != [] || d2 != [] {
      assert |cs| > 0;
      assert |d1| == |d2|;
    }
    forall j | 0 <= j < |d1|
      ensures d1[j] == d2[j]
    {
      var i := TilesLocate(cs, 0, maxLen, c, j);
      TilesWithin(cs, 0, maxLen, c, i);
      ChunkScanEmpty(d1, d2, cs[i].start, cs[i].end);
    }
  }

  /** When file 2 is a proper prefix of file 1, no byte position differs, yet
      every chunk adds the length gap: the total is the number of chunks
      times the gap. */
  lemma PrefixTotalIsGapTimesChunks(d1: seq<byte>, d2: seq<byte>, threads: nat)
    requires threads >= 1
    requires |d2| < |d1| && d2 == d1[..|d2|]
    ensures CompareOutcome(d1, d2, threads) ==
              var cs := Plan(d1, d2, threads);
              Differences(|cs| * (|d1| - |d2|), seq(|cs|, _ => []))
  {
    var cs := Plan(d1, d2, threads);
    SecondNotLongerNeverPanics(d1, d2, threads);
    forall k | 0 <= k < |cs|
      ensures ChunkScan(d1, d2, cs[k].start, cs[k].end) == []
    {
      ChunkScanEmpty(d1, d2, cs[k].start, cs[k].end);
      assert forall x :: 0 <= x < |d2| ==> d1[x] == d2[x];
    }
    RecordedZero(d1, d2, cs);
    TotalChargesGapPerChunk(d1, d2, cs);
    assert cs != [];
    assert |cs| * (|d1| - |d2|) >= |d1| - |d2|;
    forall k | 0 <= k < |cs|
      ensures Collected(d1, d2, cs)[k] == []
    {
      CollectedAt(d1, d2, cs, k);
    }
  }

  /** The first multiple of c above n. */
  function NextMultiple(n: nat, c: nat): (m: nat)
    requires c >= 1
    ensures n < m <= n + c
  {
    (n / c + 1) * c
  }

  /** Every multiple of c above n is at least NextMultiple(n, c). */
  lemma MultipleAbove(n: nat, c: nat, i: nat)
    requires c >= 1 && i * c > n
    ensures i * c >= NextMultiple(n, c)
  {
    var q := n / c;
    assert q * c <= n;
    if i <= q {
      MulMonotone(i, q, c);
    }
    assert q + 1 <= i;
    MulMonotone(q + 1, i, c);
  }

  lemma MulSucc(n: nat, g: nat)
    ensures (n + 1) * g == n * g + g
  {
  }

  lemma MulMonotone(a: nat, b: nat, c: nat)
    requires a <= b
    ensures a * c <= b * c
  {
    assert b * c == a * c + (b - a) * c;
  }

  /** A run panics exactly when some chunk start falls strictly between the
      two file lengths, which is when the first multiple of the chunk size
      above |d1| is still below |d2|. In particular it never panics when
      file 2 is not longer, and always panics when file 2 is longer than file
      1 by more than a chunk. */
  lemma PanicIff(d1: seq<byte>, d2: seq<byte>, threads: nat)
    requires threads >= 1
    ensures var c := ChunkSize(|d1|, threads);
      CompareOutcome(d1, d2, threads) == Panicked <==> NextMultiple(|d1|, c) < |d2|
    ensures |d2| <= |d1| ==> CompareOutcome(d1, d2, threads) != Panicked
    ensures |d1| + ChunkSize(|d1|, threads) < |d2| ==> CompareOutcome(d1, d2, threads) == Panicked
  {
    var cs, c := Plan(d1, d2, threads), ChunkSize(|d1|, threads);
    var m := NextMultiple(|d1|, c);
    var i := |d1| / c + 1;
    if m < |d2| {
      PlanPartition(d1, d2, threads, i);
      assert cs[i].start > |d1|;
    }
    if !StartsInFirst(d1, cs) {
      var k :| 0 <= k < |cs| && cs[k].start > |d1|;
      PlanPartition(d1, d2, threads, k);
      MultipleAbove(|d1|, c, k);
    }
  }

  /** Across the collected lists, every position of an earlier chunk's list
      comes before every position of a later one's, so the printed report is
      in file order. */
  lemma CollectedInFileOrder(d1: seq<byte>, d2: seq<byte>, threads: nat, k: nat, l: nat, x: nat, y: nat)
    requires threads >= 1
    requires CompareOutcome(d1, d2, threads).Differences?
    requires var lists := CompareOutcome(d1, d2, threads).diffs;
      k < l < |lists| && x < |lists[k]| && y < |lists[l]|
    ensures var lists := CompareOutcome(d1, d2, threads).diffs;
      lists[k][x].pos < lists[l][y].pos
  {
    var cs := Plan(d1, d2, threads);
    ByteChunksTile(0, Max(|d1|, |d2|), ChunkSize(|d1|, threads));
    TilesDisjoint(cs, 0, Max(|d1|, |d2|), ChunkSize(|d1|, threads), k, l);
    CollectedAt(d1, d2, cs, k);
    CollectedAt(d1, d2, cs, l);
  }

  /** print_diffs over every collected list, in order; None when one of the
      calls panics. */
  function PrintAll(d1: seq<byte>, d2: seq<byte>, lists: seq<seq<Diff>>): (r: Option<seq<seq<Excerpt>>>)
    requires forall k :: 0 <= k < |lists| ==> PositionsWithin(lists[k], |d1|)
    ensures r.Some? ==> |r.value| == |lists|
    decreases |lists|
  {
    if lists == [] then Some([])
    else
      var head, tail := PrintDiffs(d1, d2, lists[0]), PrintAll(d1, d2, lists[1..]);
      if head.Some? && tail.Some? then Some([head.value] + tail.value) else None
  }

  /** Printing the report succeeds exactly when printing every list does. */
  lemma {:induction false} PrintAllSome(d1: seq<byte>, d2: seq<byte>, lists: seq<seq<Diff>>)
    requires forall k :: 0 <= k < |lists| ==> PositionsWithin(lists[k], |d1|)
    ensures PrintAll(d1, d2, lists).Some? <==> forall k :: 0 <= k < |lists| ==> PrintDiffs(d1, d2, lists[k]).Some?
    decreases |lists|
  {
    if lists != [] {
      var tail := lists[1..];
      assert forall k :: 0 <= k < |tail| ==> tail[k] == lists[k + 1];
      PrintAllSome(d1, d2, tail);
    }
  }

  /** When printing succeeds, its k-th part is what print_diffs shows for
      list k. */
  lemma {:induction false} PrintAllAt(d1: seq<byte>, d2: seq<byte>, lists: seq<seq<Diff>>, k: nat)
    requires forall k :: 0 <= k < |lists| ==> PositionsWithin(lists[k], |d1|)
    requires k < |lists| && PrintAll(d1, d2, lists).Some?
    ensures Some(PrintAll(d1, d2, lists).value[k]) == PrintDiffs(d1, d2, lists[k])
    decreases k
  {
    PrintAllCons(d1, d2, lists);
    if k > 0 {
      var tail := lists[1..];
      assert tail[k - 1] == lists[k];
      PrintAllAt(d1, d2, tail, k - 1);
    }
  }

  /** A successful print of a non-empty list of lists is the print of the
      first list followed by the print of the others. */
  lemma PrintAllCons(d1: seq<byte>, d2: seq<byte>, lists: seq<seq<Diff>>)
    requires forall k :: 0 <= k < |lists| ==> PositionsWithin(lists[k], |d1|)
    requires lists != [] && PrintAll(d1, d2, lists).Some?
    ensures forall k :: 0 <= k < |lists[1..]| ==> PositionsWithin(lists[1..][k], |d1|)
    ensures PrintDiffs(d1, d2, lists[0]).Some? && PrintAll(d1, d2, lists[1..]).Some?
    ensures PrintAll(d1, d2, lists).value == [PrintDiffs(d1, d2, lists[0]).value] + PrintAll(d1, d2, lists[1..]).value
  {
    assert forall k :: 0 <= k < |lists[1..]| ==> lists[1..][k] == lists[k + 1];
  }

  /** The report of a run with differences never panics while printing when
      file 1 is not longer than file 2. */
  lemma ReportPrintsWhenFirstNotLonger(d1: seq<byte>, d2: seq<byte>, threads: nat)
    requires threads >= 1
    requires |d1| <= |d2|
    requires CompareOutcome(d1, d2, threads).Differences?
    ensures var lists := CompareOutcome(d1, d2, threads).diffs;
      (forall k :: 0 <= k < |lists| ==> PositionsWithin(lists[k], |d1|)) &&
      PrintAll(d1, d2, lists).Some?
  {
    var cs := Plan(d1, d2, threads);
    var lists: seq<seq<Diff>> := CompareOutcome(d1, d2, threads).diffs;
    forall k: nat | k < |lists|
      ensures PositionsWithin(lists[k], |d1|)
      ensures PrintDiffs(d1, d2, lists[k]).Some?
    {
      CollectedAt(d1, d2, cs, k);
      PrintNeverPanicsWhenFirstNotLonger(d1, d2, lists[k]);
    }
    PrintAllSome(d1, d2, lists);
  }
}

=== FILE: byte_scan.dfy ===
/** The byte-level scanner of the second variant (find_diffs) and the
    enclosing-line lookup used when its findings are printed (print_diffs).
    The scanner walks one chunk of byte positions of two files in step,
    records (line, position) at each mismatch, then skips to the next
    position where either file holds a '\n'; a line counter, started from the
    number of '\n' bytes of file 1 before the chunk, is bumped at every
    position where both bytes are equal and file 1 holds '\n'. */
module ByteScan {
  import opened Chunking

  newtype byte = x: int | 0 <= x < 256

  const NEWLINE: byte := 10

  datatype Option<T> = None | Some(value: T)

  /** One recorded difference: the scanner's line counter and the byte position. */
  datatype Diff = Diff(line: nat, pos: nat)

  /** data.iter().filter(|&&b| b == b'\n').count() */
  function CountNewlines(s: seq<byte>): nat
  {
    if s == [] then 0 else (if s[0] == NEWLINE then 1 else 0) + CountNewlines(s[1..])
  }

  /** A buffer holds no newline exactly when its count is zero. */
  lemma {:induction false} CountNewlinesZeroIff(s: seq<byte>)
    ensures CountNewlines(s) == 0 <==> NEWLINE !in s
  {
    if s != [] {
      CountNewlinesZeroIff(s[1..]);
      assert s == [s[0]] + s[1..];
    }
  }

  /** The two files agree on every position of [p, q). */
  ghost predicate AgreeOn(d1: seq<byte>, d2: seq<byte>, p: int, q: int)
    requires q <= |d1| && q <= |d2|
  {
    forall x :: p <= x < q && 0 <= x ==> d1[x] == d2[x]
  }

  /** Where the skip after a mismatch at pos stops: the first position at or
      after pos where either file holds '\n', or end. */
  function SkipEnd(d1: seq<byte>, d2: seq<byte>, pos: nat, end: nat): (q: nat)
    requires pos <= end <= |d1| && end <= |d2|
    ensures pos <= q <= end
    ensures q < end ==> d1[q] == NEWLINE || d2[q] == NEWLINE
    ensures forall p :: pos <= p < q ==> d1[p] != NEWLINE && d2[p] != NEWLINE
    decreases end - pos
  {
    if pos < end && d1[pos] != NEWLINE && d2[pos] != NEWLINE then SkipEnd(d1, d2, pos + 1, end) else pos
  }

  /** Reference definition of the scan from pos to end with the line counter
      at line: what find_diffs records, in order. After a mismatch the scan
      resumes one past the skip's stopping point, so the '\n' that ends the
      skip is stepped over without being counted. */
  function Scan(d1: seq<byte>, d2: seq<byte>, pos: nat, end: nat, line: nat): (diffs: seq<Diff>)
    requires end <= |d1| && end <= |d2|
    ensures forall k :: 0 <= k < |diffs| ==> pos <= diffs[k].pos < end
    decreases end - pos
  {
    if pos >= end then []
    else if d1[pos] != d2[pos] then [Diff(line, pos)] + Scan(d1, d2, SkipEnd(d1, d2, pos, end) + 1, end, line)
    else if d1[pos] == NEWLINE then Scan(d1, d2, pos + 1, end, line + 1)
    else Scan(d1, d2, pos + 1, end, line)
  }

  /** Every recorded position is a mismatch. */
  lemma {:induction false} ScanWithin(d1: seq<byte>, d2: seq<byte>, pos: nat, end: nat, line: nat)
    requires end <= |d1| && end <= |d2|
    ensures forall k :: 0 <= k < |Scan(d1, d2, pos, end, line)| ==>
              d1[Scan(d1, d2, pos, end, line)[k].pos] != d2[Scan(d1, d2, pos, end, line)[k].pos]
    decreases end - pos
  {
    if pos < end {
      var ds := Scan(d1, d2, pos, end, line);
      if d1[pos] != d2[pos] {
        var q := SkipEnd(d1, d2, pos, end);
        ScanWithin(d1, d2, q + 1, end, line);
        assert ds == [Diff(line, pos)] + Scan(d1, d2, q + 1, end, line);
      } else {
        var line' := if d1[pos] == NEWLINE then line + 1 else line;
        ScanWithin(d1, d2, pos + 1, end, line');
        assert ds == Scan(d1, d2, pos + 1, end, line');
      }
    }
  }

  /** Recorded positions strictly increase. */
  lemma {:induction false} ScanIncreasing(d1: seq<byte>, d2: seq<byte>, pos: nat, end: nat, line: nat, k: nat, l: nat)
    requires end <= |d1| && end <= |d2|
    requires k < l < |Scan(d1, d2, pos, end, line)|
    ensures Scan(d1, d2, pos, end, line)[k].pos < Scan(d1, d2, pos, end, line)[l].pos
    decreases end - pos
  {
    var ds := Scan(d1, d2, pos, end, line);
    if d1[pos] != d2[pos] {
      var rest := Scan(d1, d2, SkipEnd(d1, d2, pos, end) + 1, end, line);
      assert ds == [Diff(line, pos)] + rest;
      if k > 0 {
        ScanIncreasing(d1, d2, SkipEnd(d1, d2, pos, end) + 1, end, line, k - 1, l - 1);
      } else {
        assert ds[l] == rest[l - 1];
      }
    } else {
      var line' := if d1[pos] == NEWLINE then line + 1 else line;
      assert ds == Scan(d1, d2, pos + 1, end, line');
      ScanIncreasing(d1, d2, pos + 1, end, line', k, l);
    }
  }

  lemma CountNewlinesCons(s: seq<byte>, i: nat, j: nat)
    requires i < j <= |s|
    ensures CountNewlines(s[i..j]) == (if s[i] == NEWLINE then 1 else 0) + CountNewlines(s[i + 1..j])
  {
    assert s[i..j][1..] == s[i + 1..j];
  }

  /** Fewer bytes never hold more newlines. */
  lemma {:induction false} CountNewlinesSuffix(s: seq<byte>, i: nat, j: nat, k: nat)
    requires i <= j <= k <= |s|
    ensures CountNewlines(s[j..k]) <= CountNewlines(s[i..k])
    decreases j - i
  {
    if i < j {
      CountNewlinesSuffix(s, i + 1, j, k);
      CountNewlinesCons(s, i, k);
    }
  }

  /** Newline counts add up over adjacent ranges. */
  lemma {:induction false} CountNewlinesSplit(s: seq<byte>, i: nat, j: nat, k: nat)
    requires i <= j <= k <= |s|
    ensures CountNewlines(s[i..k]) == CountNewlines(s[i..j]) + CountNewlines(s[j..k])
    decreases j - i
  {
    if i < j {
      CountNewlinesSplit(s, i + 1, j, k);
      CountNewlinesCons(s, i, k);
      CountNewlinesCons(s, i, j);
    } else {
      assert s[i..j] == [];
    }
  }

  /** A scan records nothing exactly when the files agree on [pos, end). */
  lemma {:induction false} ScanEmptyIffAgree(d1: seq<byte>, d2: seq<byte>, pos: nat, end: nat, line: nat)
    requires end <= |d1| && end <= |d2|
    ensures Scan(d1, d2, pos, end, line) == [] <==> AgreeOn(d1, d2, pos, end)
    decreases end - pos
  {
    if pos < end {
      ScanStep(d1, d2, pos, end, line);
      if d1[pos] == d2[pos] {
        ScanEmptyIffAgree(d1, d2, pos + 1, end, if d1[pos] == NEWLINE then line + 1 else line);
      }
    }
  }

  /** The first thing a scan records is the first mismatch at or after pos,
      with the exact line number (the start line plus the '\n' bytes passed). */
  lemma {:induction false} ScanFirst(d1: seq<byte>, d2: seq<byte>, pos: nat, end: nat, line: nat)
    requires end <= |d1| && end <= |d2|
    requires Scan(d1, d2, pos, end, line) != []
    ensures var d := Scan(d1, d2, pos, end, line)[0];
      AgreeOn(d1, d2, pos, d.pos) && d.line == line + CountNewlines(d1[pos..d.pos])
    decreases end - pos
  {
    ScanStep(d1, d2, pos, end, line);
    if d1[pos] == d2[pos] {
      var line' := if d1[pos] == NEWLINE then line + 1 else line;
      ScanFirst(d1, d2, pos + 1, end, line');
      CountNewlinesCons(d1, pos, Scan(d1, d2, pos, end, line)[0].pos);
    } else {
      assert d1[pos..pos] == [];
    }
  }

  /** A mismatch at pos is recorded first; what follows it is the first
      mismatch after the skip that ends at the next '\n' of either file. */
  lemma ScanAfterMismatch(d1: seq<byte>, d2: seq<byte>, pos: nat, end: nat, line: nat)
    requires pos < end <= |d1| && end <= |d2|
    requires d1[pos] != d2[pos]
    ensures var ds, q := Scan(d1, d2, pos, end, line), SkipEnd(d1, d2, pos, end);
      && ds[0].pos == pos
      && (1 < |ds| ==> q < ds[1].pos && AgreeOn(d1, d2, q + 1, ds[1].pos))
      && (1 == |ds| ==> AgreeOn(d1, d2, q + 1, end))
  {
    var q := SkipEnd(d1, d2, pos, end);
    var rest := Scan(d1, d2, q + 1, end, line);
    ScanEmptyIffAgree(d1, d2, q + 1, end, line);
    if rest != [] {
      ScanFirst(d1, d2, q + 1, end, line);
    }
    ScanStep(d1, d2, pos, end, line);
  }

  /** Between one recorded difference and the next, the scan skips up to and
      including the next '\n' of either file, then records the first
      mismatch after it; after the last one the files agree from that skip
      point to end. So nothing between a mismatch and the end of its line is
      ever recorded, and nothing after it is missed. */
  ghost predicate NextFollows(d1: seq<byte>, d2: seq<byte>, ds: seq<Diff>, end: nat, k: nat)
    requires end <= |d1| && end <= |d2|
    requires k < |ds| && ds[k].pos <= end
  {
    var q := SkipEnd(d1, d2, ds[k].pos, end);
    && (k + 1 < |ds| ==> q < ds[k + 1].pos && ds[k + 1].pos <= end && AgreeOn(d1, d2, q + 1, ds[k + 1].pos))
    && (k + 1 == |ds| ==> AgreeOn(d1, d2, q + 1, end))
  }

  lemma {:induction false} ScanNext(d1: seq<byte>, d2: seq<byte>, pos: nat, end: nat, line: nat, k: nat)
    requires end <= |d1| && end <= |d2|
    requires k < |Scan(d1, d2, pos, end, line)|
    ensures NextFollows(d1, d2, Scan(d1, d2, pos, end, line), end, k)
    decreases end - pos, 1
  {
    if d1[pos] != d2[pos] {
      if k == 0 {
        ScanAfterMismatch(d1, d2, pos, end, line);
      } else {
        ScanNextAfterSkip(d1, d2, pos, end, line, k);
      }
    } else {
      var line' := if d1[pos] == NEWLINE then line + 1 else line;
      assert Scan(d1, d2, pos, end, line) == Scan(d1, d2, pos + 1, end, line');
      ScanNext(d1, d2, pos + 1, end, line', k);
    }
  }

  /** The recursive case of ScanNext past a mismatch at pos. */
  lemma {:induction false} ScanNextAfterSkip(d1: seq<byte>, d2: seq<byte>, pos: nat, end: nat, line: nat, k: nat)
    requires pos < end <= |d1| && end <= |d2|
    requires d1[pos] != d2[pos]
    requires 0 < k < |Scan(d1, d2, pos, end, line)|
    ensures NextFollows(d1, d2, Scan(d1, d2, pos, end, line), end, k)
    decreases end - pos, 0
  {
    var q := SkipEnd(d1, d2, pos, end);
    var rest := Scan(d1, d2, q + 1, end, line);
    ScanStep(d1, d2, pos, end, line);
    ScanNext(d1, d2, q + 1, end, line, k - 1);
    NextFollowsCons(d1, d2, Diff(line, pos), rest, end, k);
  }

  /** NextFollows is about one record and the one after it, so it survives
      putting a record in front. */
  lemma NextFollowsCons(d1: seq<byte>, d2: seq<byte>, d: Diff, rest: seq<Diff>, end: nat, k: nat)
    requires end <= |d1| && end <= |d2|
    requires 0 < k <= |rest| && rest[k - 1].pos <= end
    requires NextFollows(d1, d2, rest, end, k - 1)
    ensures NextFollows(d1, d2, [d] + rest, end, k)
  {
    var ds := [d] + rest;
    assert ds[k] == rest[k - 1];
    assert k + 1 < |ds| ==> ds[k + 1] == rest[k];
  }

  /** The line counter never runs ahead of the true line: every recorded line
      is at least the start line and at most the start line plus the '\n'
      bytes of file 1 between the scan start and the recorded position. */
  lemma {:induction false} ScanLineBounds(d1: seq<byte>, d2: seq<byte>, pos: nat, end: nat, line: nat, k: nat)
    requires end <= |d1| && end <= |d2|
    requires k < |Scan(d1, d2, pos, end, line)|
    ensures var d := Scan(d1, d2, pos, end, line)[k];
      line <= d.line <= line + CountNewlines(d1[pos..d.pos])
    decreases end - pos, 1
  {
    if d1[pos] != d2[pos] {
      ScanLineBoundsAfterMismatch(d1, d2, pos, end, line, k);
    } else {
      var ds := Scan(d1, d2, pos, end, line);
      var line' := if d1[pos] == NEWLINE then line + 1 else line;
      ScanLineBounds(d1, d2, pos + 1, end, line', k);
      assert ds == Scan(d1, d2, pos + 1, end, line');
      CountNewlinesCons(d1, pos, ds[k].pos);
    }
  }

  /** The case of ScanLineBounds where pos is a mismatch. */
  lemma {:induction false} ScanLineBoundsAfterMismatch(d1: seq<byte>, d2: seq<byte>, pos: nat, end: nat, line: nat, k: nat)
    requires pos < end <= |d1| && end <= |d2|
    requires d1[pos] != d2[pos]
    requires k < |Scan(d1, d2, pos, end, line)|
    ensures var d := Scan(d1, d2, pos, end, line)[k];
      line <= d.line <= line + CountNewlines(d1[pos..d.pos])
    decreases end - pos, 0
  {
    var ds := Scan(d1, d2, pos, end, line);
    var q := SkipEnd(d1, d2, pos, end);
    var rest := Scan(d1, d2, q + 1, end, line);
    assert ds == [Diff(line, pos)] + rest;
    if k > 0 {
      ScanLineBounds(d1, d2, q + 1, end, line, k - 1);
      assert ds[k] == rest[k - 1];
      CountNewlinesSuffix(d1, pos, q + 1, ds[k].pos);
    }
  }

  /** Record k + 1 lies past the skip after record k, and its line is record
      k's line plus the '\n' bytes of file 1 from one past the skip's
      stopping point q to its position: the '\n' at q is not counted. */
  ghost predicate NextLine(d1: seq<byte>, d2: seq<byte>, ds: seq<Diff>, end: nat, k: nat)
    requires end <= |d1| && end <= |d2|
    requires k + 1 < |ds| && ds[k].pos <= end
  {
    var q := SkipEnd(d1, d2, ds[k].pos, end);
    q + 1 <= ds[k + 1].pos <= end &&
    ds[k + 1].line == ds[k].line + CountNewlines(d1[q + 1..ds[k + 1].pos])
  }

  /** The exact line of every record after the first. */
  lemma {:induction false} ScanNextLine(d1: seq<byte>, d2: seq<byte>, pos: nat, end: nat, line: nat, k: nat)
    requires end <= |d1| && end <= |d2|
    requires k + 1 < |Scan(d1, d2, pos, end, line)|
    ensures NextLine(d1, d2, Scan(d1, d2, pos, end, line), end, k)
    decreases end - pos, 1
  {
    if d1[pos] != d2[pos] && k == 0 {
      ScanNextLineAtMismatch(d1, d2, pos, end, line);
    } else if d1[pos] != d2[pos] {
      ScanNextLineAfterSkip(d1, d2, pos, end, line, k);
    } else {
      var line' := if d1[pos] == NEWLINE then line + 1 else line;
      ScanStep(d1, d2, pos, end, line);
      ScanNextLine(d1, d2, pos + 1, end, line', k);
    }
  }

  /** ScanNextLine for the mismatch at pos and the record after it. */
  lemma ScanNextLineAtMismatch(d1: seq<byte>, d2: seq<byte>, pos: nat, end: nat, line: nat)
    requires pos < end <= |d1| && end <= |d2|
    requires d1[pos] != d2[pos]
    requires 1 < |Scan(d1, d2, pos, end, line)|
    ensures NextLine(d1, d2, Scan(d1, d2, pos, end, line), end, 0)
  {
    var q := SkipEnd(d1, d2, pos, end);
    var rest := Scan(d1, d2, q + 1, end, line);
    ScanStep(d1, d2, pos, end, line);
    ScanFirstLine(d1, d2, q + 1, end, line);
    NextLineHead(d1, d2, Diff(line, pos), rest, end, q);
  }

  /** The recursive case of ScanNextLine past a mismatch at pos. */
  lemma {:induction false} ScanNextLineAfterSkip(d1: seq<byte>, d2: seq<byte>, pos: nat, end: nat, line: nat, k: nat)
    requires pos < end <= |d1| && end <= |d2|
    requires d1[pos] != d2[pos]
    requires 0 < k && k + 1 < |Scan(d1, d2, pos, end, line)|
    ensures NextLine(d1, d2, Scan(d1, d2, pos, end, line), end, k)
    decreases end - pos, 0
  {
    var q := SkipEnd(d1, d2, pos, end);
    var rest := Scan(d1, d2, q + 1, end, line);
    ScanStep(d1, d2, pos, end, line);
    ScanNextLine(d1, d2, q + 1, end, line, k - 1);
    NextLineCons(d1, d2, Diff(line, pos), rest, end, k);
  }

  /** The line part of ScanFirst. */
  lemma ScanFirstLine(d1: seq<byte>, d2: seq<byte>, pos: nat, end: nat, line: nat)
    requires end <= |d1| && end <= |d2|
    requires Scan(d1, d2, pos, end, line) != []
    ensures var d := Scan(d1, d2, pos, end, line)[0];
      pos <= d.pos < end && d.line == line + CountNewlines(d1[pos..d.pos])
  {
    ScanFirst(d1, d2, pos, end, line);
  }

  /** NextLine for the first two records, from the line of the second. */
  lemma NextLineHead(d1: seq<byte>, d2: seq<byte>, d: Diff, rest: seq<Diff>, end: nat, q: nat)
    requires end <= |d1| && end <= |d2|
    requires d.pos <= end && q == SkipEnd(d1, d2, d.pos, end)
    requires rest != [] && q + 1 <= rest[0].pos <= end
    requires rest[0].line == d.line + CountNewlines(d1[q + 1..rest[0].pos])
    ensures NextLine(d1, d2, [d] + rest, end, 0)
  {
    assert ([d] + rest)[1] == rest[0];
  }

  /** NextLine is about one record and the one after it, so it survives
      putting a record in front. */
  lemma NextLineCons(d1: seq<byte>, d2: seq<byte>, d: Diff, rest: seq<Diff>, end: nat, k: nat)
    requires end <= |d1| && end <= |d2|
    requires 0 < k && k < |rest| && rest[k - 1].pos <= end
    requires NextLine(d1, d2, rest, end, k - 1)
    ensures NextLine(d1, d2, [d] + rest, end, k)
  {
    var ds := [d] + rest;
    assert ds[k] == rest[k - 1] && ds[k + 1] == rest[k];
  }

  /** The counter lags after a mismatch that ends at a '\n': with file 1 "a\nb"
      and file 2 "c\nd" both mismatches are reported on line 1, although the
      second byte position sits on line 2. */
  lemma LineCounterLagsAfterMismatch()
    ensures var d1, d2 := [97 as byte, NEWLINE, 98], [99 as byte, NEWLINE, 100];
      && Scan(d1, d2, 0, 3, 1) == [Diff(1, 0), Diff(1, 2)]
      && 1 + CountNewlines(d1[..2]) == 2
  {
    var d1, d2 := [97 as byte, NEWLINE, 98], [99 as byte, NEWLINE, 100];
    assert SkipEnd(d1, d2, 0, 3) == 1;
    assert SkipEnd(d1, d2, 2, 3) == 3;
    assert d1[..2] == [97 as byte, NEWLINE];
    assert d1[..2][1..] == [NEWLINE];
    assert d1[..2][1..][1..] == [];
    assert CountNewlines([NEWLINE]) == 1 + CountNewlines([]);
    assert CountNewlines(d1[..2]) == 0 + CountNewlines([NEWLINE]);
  }

  /** One step of the scan at pos < end, as the loop of find_diffs takes it. */
  lemma ScanStep(d1: seq<byte>, d2: seq<byte>, pos: nat, end: nat, line: nat)
    requires pos < end <= |d1| && end <= |d2|
    ensures d1[pos] != d2[pos] ==>
      Scan(d1, d2, pos, end, line) == [Diff(line, pos)] + Scan(d1, d2, SkipEnd(d1, d2, pos, end) + 1, end, line)
    ensures d1[pos] == d2[pos] ==>
      Scan(d1, d2, pos, end, line) == Scan(d1, d2, pos + 1, end, if d1[pos] == NEWLINE then line + 1 else line)
  {
  }

  /** What find_diffs(data1, data2, start, end) records: the scan of
      [start, min(end, |d1|, |d2|)) with the line counter started at 1 plus
      the '\n' count of data1[..start]. */
  function ChunkScan(d1: seq<byte>, d2: seq<byte>, start: nat, end: nat): (ds: seq<Diff>)
    requires start <= |d1|
    ensures forall k :: 0 <= k < |ds| ==>
              start <= ds[k].pos < Min(end, Min(|d1|, |d2|)) && d1[ds[k].pos] != d2[ds[k].pos]
  {
    ScanWithin(d1, d2, start, Min(end, Min(|d1|, |d2|)), CountNewlines(d1[..start]) + 1);
    Scan(d1, d2, start, Min(end, Min(|d1|, |d2|)), CountNewlines(d1[..start]) + 1)
  }

  /** The skip loop after a mismatch: step forward while neither file holds
      '\n', stopping at end. */
  method SkipToNewline(d1: seq<byte>, d2: seq<byte>, pos: nat, end: nat) returns (q: nat)
    requires pos <= end <= |d1| && end <= |d2|
    ensures q == SkipEnd(d1, d2, pos, end)
  {
    q := pos;
    while q < end && d1[q] != NEWLINE && d2[q] != NEWLINE
      invariant pos <= q <= end
      invariant SkipEnd(d1, d2, q, end) == SkipEnd(d1, d2, pos, end)
      decreases end - q
    {
      q := q + 1;
    }
  }

  /** find_diffs records nothing exactly when the files agree on the part of
      [start, end) inside both files. */
  lemma ChunkScanEmpty(d1: seq<byte>, d2: seq<byte>, start: nat, end: nat)
    requires start <= |d1|
    ensures ChunkScan(d1, d2, start, end) == [] <==> AgreeOn(d1, d2, start, Min(end, Min(|d1|, |d2|)))
  {
    ScanEmptyIffAgree(d1, d2, start, Min(end, Min(|d1|, |d2|)), CountNewlines(d1[..start]) + 1);
  }

  /** The first difference find_diffs records carries the exact, file-absolute
      line number of its position: 1 plus the '\n' bytes of file 1 before it.
      Later ones can lag (LineCounterLagsAfterMismatch). */
  lemma ChunkFirstLineExact(d1: seq<byte>, d2: seq<byte>, start: nat, end: nat)
    requires start <= |d1|
    requires ChunkScan(d1, d2, start, end) != []
    ensures var d := ChunkScan(d1, d2, start, end)[0];
      d.line == 1 + CountNewlines(d1[..d.pos])
  {
    var e := Min(end, Min(|d1|, |d2|));
    ScanFirst(d1, d2, start, e, CountNewlines(d1[..start]) + 1);
    var p := ChunkScan(d1, d2, start, end)[0].pos;
    CountNewlinesSplit(d1, 0, start, p);
    assert d1[0..start] == d1[..start] && d1[0..p] == d1[..p];
  }

  /** find_diffs(data1, data2, start, end): scan [start, min(end, |d1|, |d2|))
      with the line counter started at 1 + the '\n' count of data1[..start]
      (the slice that needs start <= |data1|). Each recorded difference adds
      one to the shared total, and when the files' lengths differ the length
      difference is added once more per call. */
  method FindDiffs(d1: seq<byte>, d2: seq<byte>, start: nat, end: nat)
    returns (diffs: seq<Diff>, added: nat)
    requires start <= |d1|
    ensures diffs == ChunkScan(d1, d2, start, end)
    ensures added == |diffs| + AbsDiff(|d1|, |d2|)
  {
    diffs := [];
    added := 0;
    var line: nat := CountNewlines(d1[..start]) + 1;
    ghost var line0: nat := line;
    var pos := start;
    var len: nat := Min(|d1|, |d2|);
    var e: nat := Min(end, len);
    while pos < e
      invariant start <= pos
      invariant diffs + Scan(d1, d2, pos, e, line) == Scan(d1, d2, start, e, line0)
      invariant added == |diffs|
      decreases e - pos
    {
      ScanStep(d1, d2, pos, e, line);
      if d1[pos] != d2[pos] {
        ghost var rest := Scan(d1, d2, SkipEnd(d1, d2, pos, e) + 1, e, line);
        assert diffs + ([Diff(line, pos)] + rest) == (diffs + [Diff(line, pos)]) + rest;
        diffs := diffs + [Diff(line, pos)];
        added := added + 1;
        pos := SkipToNewline(d1, d2, pos, e);
      } else if d1[pos] == NEWLINE {
        line := line + 1;
      }
      pos := pos + 1;
    }
    if |d1| != |d2| {
      added := added + AbsDiff(|d1|, |d2|);
    }
  }

  // ------------------------------------------------------------ print_diffs

  /** Start of the line around pos: one past the last '\n' of d[..pos], or 0. */
  function LineStart(d: seq<byte>, pos: nat): (lo: nat)
    requires pos <= |d|
    ensures lo <= pos
    ensures lo > 0 ==> d[lo - 1] == NEWLINE
    ensures forall p :: lo <= p < pos ==> d[p] != NEWLINE
  {
    if pos == 0 then 0 else if d[pos - 1] == NEWLINE then pos else LineStart(d, pos - 1)
  }

  /** What print_diffs shows for one difference: the line and position, and
      the bytes [lo, hi) of the line of file 1 around the position, taken
      from both files. */
  datatype Excerpt = Excerpt(line: nat, pos: nat, text1: seq<byte>, text2: seq<byte>)

  /** The excerpt for one difference; None where data2[lo..hi] would be out of
      range (hi > |data2|), which panics in the program. */
  function ExcerptOf(d1: seq<byte>, d2: seq<byte>, diff: Diff): (r: Option<Excerpt>)
    requires diff.pos <= |d1|
    ensures r.None? <==> NextIndex(d1, NEWLINE, diff.pos) > |d2|
    ensures r.Some? ==> var lo, hi := LineStart(d1, diff.pos), NextIndex(d1, NEWLINE, diff.pos);
      && lo <= diff.pos <= hi
      && r.value == Excerpt(diff.line, diff.pos, d1[lo..hi], d2[lo..hi])
      && NEWLINE !in r.value.text1
  {
    var lo, hi := LineStart(d1, diff.pos), NextIndex(d1, NEWLINE, diff.pos);
    if hi > |d2| then None
    else
      assert forall p :: 0 <= p < hi - lo ==> d1[lo..hi][p] == d1[lo + p];
      Some(Excerpt(diff.line, diff.pos, d1[lo..hi], d2[lo..hi]))
  }

  /** Every recorded position lies within the first n bytes. */
  predicate PositionsWithin(diffs: seq<Diff>, n: nat)
  {
    forall k :: 0 <= k < |diffs| ==> diffs[k].pos <= n
  }

  /** print_diffs over one chunk's list: the excerpts in order, or None when
      one of them panics. */
  function PrintDiffs(d1: seq<byte>, d2: seq<byte>, diffs: seq<Diff>): (r: Option<seq<Excerpt>>)
    requires PositionsWithin(diffs, |d1|)
    ensures r.Some? ==> |r.value| == |diffs|
  {
    if diffs == [] then Some([])
    else
      var head, tail := ExcerptOf(d1, d2, diffs[0]), PrintDiffs(d1, d2, diffs[1..]);
      if head.Some? && tail.Some? then Some([head.value] + tail.value) else None
  }

  /** print_diffs over a list succeeds exactly when every excerpt does. */
  lemma {:induction false} PrintDiffsSome(d1: seq<byte>, d2: seq<byte>, diffs: seq<Diff>)
    requires PositionsWithin(diffs, |d1|)
    ensures PrintDiffs(d1, d2, diffs).Some? <==> forall k :: 0 <= k < |diffs| ==> ExcerptOf(d1, d2, diffs[k]).Some?
    decreases |diffs|
  {
    if diffs != [] {
      var tail := diffs[1..];
      assert forall k :: 0 <= k < |tail| ==> tail[k] == diffs[k + 1];
      PrintDiffsSome(d1, d2, tail);
    }
  }

  /** When print_diffs succeeds, its k-th excerpt is the one for difference k. */
  lemma {:induction false} PrintDiffsAt(d1: seq<byte>, d2: seq<byte>, diffs: seq<Diff>, k: nat)
    requires PositionsWithin(diffs, |d1|)
    requires k < |diffs| && PrintDiffs(d1, d2, diffs).Some?
    ensures Some(PrintDiffs(d1, d2, diffs).value[k]) == ExcerptOf(d1, d2, diffs[k])
    decreases k
  {
    var tail := diffs[1..];
    assert PrintDiffs(d1, d2, diffs).value == [ExcerptOf(d1, d2, diffs[0]).value] + PrintDiffs(d1, d2, tail).value;
    if k > 0 {
      assert tail[k - 1] == diffs[k];
      PrintDiffsAt(d1, d2, tail, k - 1);
    }
  }

  /** Printing panics when file 1 is longer: with file 1 "abc" and file 2 "ax",
      the difference at position 1 lies on a line of file 1 that runs to
      position 3, past the end of file 2. When file 1 is not longer it never
      does. */
  lemma PrintPanicsWhenSecondShorter()
    ensures ExcerptOf([97 as byte, 98, 99], [97 as byte, 120], Diff(1, 1)).None?
  {
    assert NextIndex([97 as byte, 98, 99], NEWLINE, 1) == 3;
  }

  lemma {:induction false} PrintNeverPanicsWhenFirstNotLonger(d1: seq<byte>, d2: seq<byte>, diffs: seq<Diff>)
    requires |d1| <= |d2|
    requires PositionsWithin(diffs, |d1|)
    ensures PrintDiffs(d1, d2, diffs).Some?
  {
    forall k | 0 <= k < |diffs|
      ensures ExcerptOf(d1, d2, diffs[k]).Some?
    {
      assert NextIndex(d1, NEWLINE, diffs[k].pos) <= |d1|;
    }
    PrintDiffsSome(d1, d2, diffs);
  }
}

=== FILE: chunking.dfy ===
/** Chunk descriptors shared by both diff variants: a half-open range of line
    (or byte) indices handed to one worker, and what it means for a list of
    them to split an index range into disjoint consecutive pieces. */
module Chunking {

  function Min(x: int, y: int): int { if x <= y then x else y }

  function Max(x: int, y: int): int { if x >= y then x else y }

  /** |x - y| for naturals (Rust's usize::abs_diff). */
  function AbsDiff(x: nat, y: nat): (r: nat)
    ensures Min(x, y) + r == Max(x, y)
  {
    if x >= y then x - y else y - x
  }

  /** Index of the first occurrence of x at or after from, or |s| when there
      is none: a delimiter search over a line or a byte buffer. */
  function NextIndex<T(==)>(s: seq<T>, x: T, from: nat): (k: nat)
    requires from <= |s|
    ensures from <= k <= |s|
    ensures k < |s| ==> s[k] == x
    ensures forall p :: from <= p < k ==> s[p] != x
    decreases |s| - from
  {
    if from == |s| || s[from] == x then from else NextIndex(s, x, from + 1)
  }

  /** The index range [start, end) one worker handles. */
  datatype Chunk = Chunk(start: nat, end: nat)

  predicate InChunk(c: Chunk, j: int) { c.start <= j < c.end }

  /** The chunks, in order, tile [from, total): the first starts at from, each
      one is non-empty, at most size long and ends where the next begins, and
      the last ends at total. */
  ghost predicate Tiles(chunks: seq<Chunk>, from: nat, total: nat, size: nat)
    decreases |chunks|
  {
    if chunks == [] then from == total
    else
      chunks[0].start == from && from < chunks[0].end <= from + size &&
      Tiles(chunks[1..], chunks[0].end, total, size)
  }

  /** A chunk plan for total units with the given chunk size. */
  ghost predicate Partition(chunks: seq<Chunk>, total: nat, size: nat)
  {
    Tiles(chunks, 0, total, size)
  }

  /** Every chunk of a tiling lies inside the tiled range. */
  lemma {:induction false} TilesWithin(chunks: seq<Chunk>, from: nat, total: nat, size: nat, i: nat)
    requires Tiles(chunks, from, total, size)
    requires i < |chunks|
    ensures from <= chunks[i].start < chunks[i].end <= total
    ensures chunks[i].end <= chunks[i].start + size
    decreases |chunks|
  {
    if i > 0 {
      TilesWithin(chunks[1..], chunks[0].end, total, size, i - 1);
    } else if |chunks| > 1 {
      TilesWithin(chunks[1..], chunks[0].end, total, size, 0);
    } else {
      assert Tiles(chunks[1..], chunks[0].end, total, size);
    }
  }

  /** Chunks of a tiling are pairwise disjoint: an earlier chunk ends no later
      than a later one starts. */
  lemma {:induction false} TilesDisjoint(chunks: seq<Chunk>, from: nat, total: nat, size: nat, i: nat, k: nat)
    requires Tiles(chunks, from, total, size)
    requires i < k < |chunks|
    ensures chunks[i].end <= chunks[k].start
    decreases |chunks|
  {
    if i > 0 {
      TilesDisjoint(chunks[1..], chunks[0].end, total, size, i - 1, k - 1);
    } else {
      TilesWithin(chunks[1..], chunks[0].end, total, size, k - 1);
    }
  }

  /** Every index of the tiled range lies in exactly one chunk, and indices
      outside the range lie in none. */
  lemma {:induction false} TilesLocate(chunks: seq<Chunk>, from: nat, total: nat, size: nat, j: int)
    returns (i: nat)
    requires Tiles(chunks, from, total, size)
    requires from <= j < total
    ensures i < |chunks| && InChunk(chunks[i], j)
    ensures forall k :: 0 <= k < |chunks| && InChunk(chunks[k], j) ==> k == i
    decreases |chunks|
  {
    if j < chunks[0].end {
      i := 0;
      forall k | 0 < k < |chunks|
        ensures !InChunk(chunks[k], j)
      {
        TilesDisjoint(chunks, from, total, size, 0, k);
      }
    } else {
      var i' := TilesLocate(chunks[1..], chunks[0].end, total, size, j);
      i := i' + 1;
    }
  }
}

=== FILE: line_diff.dfy ===
/** The line-level diff engine (compare_files): file A's line range is cut into
    chunks of 1000 lines, each chunk is compared by a worker that renders a
    private buffer of records and counts its differing lines, and each
    finished buffer is emitted whole while the counts add up to the total.
    Comparison is positional: line j of A against line j of B, for j < |A|
    only. The workers run concurrently in the program; here they run one after
    another, in a completion order given as a parameter. */
module LineDiff {
  import opened Chunking
  import opened DiffMarker
  import opened ReportFormat

  const CHUNK_SIZE: nat := 1000

  /** The worker's test for line j of A: B has no line j, or it differs. */
  predicate Differs(a: seq<string>, b: seq<string>, j: nat)
    requires j < |a|
  {
    j >= |b| || a[j] != b[j]
  }

  /** A line is counted exactly when B has no line there or the marker the
      worker would print for the pair is not blank. */
  lemma DiffersIffMarked(a: seq<string>, b: seq<string>, j: nat)
    requires j < |a|
    ensures Differs(a, b, j) <==> j >= |b| || Marker(b[j], a[j]) != Spaces(Max(|b[j]|, |a[j]|))
  {
    if j < |b| {
      MarkerBlankIffEqual(b[j], a[j]);
    }
  }

  // ---------------------------------------------------------------- chunk plan

  /** num_chunks: ceil(|A| / 1000). */
  function NumChunks(n: nat): (c: nat)
    ensures n <= c * CHUNK_SIZE
    ensures c > 0 ==> (c - 1) * CHUNK_SIZE < n
  {
    (n + CHUNK_SIZE - 1) / CHUNK_SIZE
  }

  /** The range the worker for chunk i covers: [i * 1000, min(i * 1000 + 1000, n)). */
  function LineChunk(i: nat, n: nat): (c: Chunk)
    ensures i < NumChunks(n) ==> c.start < c.end <= n && c.end - c.start <= CHUNK_SIZE
  {
    Chunk(i * CHUNK_SIZE, Min(i * CHUNK_SIZE + CHUNK_SIZE, n))
  }

  /** All chunk descriptors, by index. */
  function LinePlan(n: nat): (plan: seq<Chunk>)
    ensures |plan| == NumChunks(n)
    ensures forall i :: 0 <= i < |plan| ==> plan[i].start == i * CHUNK_SIZE && plan[i].end <= n
  {
    seq(NumChunks(n), i requires 0 <= i < NumChunks(n) => LineChunk(i, n))
  }

  lemma {:induction false} LinePlanTilesFrom(n: nat, k: nat)
    requires k <= NumChunks(n)
    ensures Tiles(LinePlan(n)[k..], Min(k * CHUNK_SIZE, n), n, CHUNK_SIZE)
    decreases NumChunks(n) - k
  {
    var plan := LinePlan(n);
    if k < NumChunks(n) {
      LinePlanTilesFrom(n, k + 1);
      assert plan[k..][1..] == plan[k + 1..];
      assert plan[k..][0] == LineChunk(k, n);
    } else {
      assert plan[k..] == [];
    }
  }

  /** The chunks are non-empty, at most 1000 lines long, pairwise disjoint,
      and together cover [0, |A|) exactly once. */
  lemma LinePlanPartition(n: nat)
    ensures Partition(LinePlan(n), n, CHUNK_SIZE)
    ensures forall j :: 0 <= j < n ==> InChunk(LinePlan(n)[j / CHUNK_SIZE], j)
  {
    LinePlanTilesFrom(n, 0);
    assert LinePlan(n)[0..] == LinePlan(n);
    forall j | 0 <= j < n
      ensures InChunk(LinePlan(n)[j / CHUNK_SIZE], j)
    {
      LineOfChunk(j, j / CHUNK_SIZE, n);
    }
  }

  /** Line j (< n) lies in chunk i exactly when i == j / 1000, and that index
      is a chunk of the plan. */
  lemma LineOfChunk(j: nat, i: nat, n: nat)
    requires j < n
    ensures j / CHUNK_SIZE < NumChunks(n)
    ensures InChunk(LineChunk(i, n), j) <==> i == j / CHUNK_SIZE
  {
  }

  // ---------------------------------------------------------------- records

  /** The lines one index contributes to a worker's buffer: nothing for an
      unchanged line; "+" line and an all-caret marker when B has no line j;
      "-" line of B, "+" line of A and their marker for a modified line. */
  function RecordLines(a: seq<string>, b: seq<string>, j: nat, maxLineNum: nat): (r: seq<string>)
    requires j < |a|
    ensures |r| == (if !Differs(a, b, j) then 0 else if j >= |b| then 2 else 3)
  {
    if j >= |b| then
      [DiffLine('+', j + 1, a[j], maxLineNum), MarkerLine(Carets(|a[j]|), maxLineNum)]
    else if a[j] != b[j] then
      [DiffLine('-', j + 1, b[j], maxLineNum),
       DiffLine('+', j + 1, a[j], maxLineNum),
       MarkerLine(Marker(b[j], a[j]), maxLineNum)]
    else
      []
  }

  /** A record is rendered exactly for the lines the worker counts. */
  lemma RecordIffDiffers(a: seq<string>, b: seq<string>, j: nat, m: nat)
    requires j < |a|
    ensures RecordLines(a, b, j, m) == [] <==> !Differs(a, b, j)
  {
  }

  /** An addition (B has no line j): a "+" line carrying A's line under the
      number j + 1, right-aligned in Width(max(|A|, |B|)) columns, then a
      marker line of |A[j]| carets indented Width + 3 columns. */
  lemma AdditionRecord(a: seq<string>, b: seq<string>, j: nat)
    requires |b| <= j < |a|
    ensures |ToDecimal(j + 1)| <= Width(Max(|a|, |b|))
    ensures var m := Max(|a|, |b|);
      var r, w := RecordLines(a, b, j, m), Width(m);
      && |r| == 2
      && r[0][0] == '+' && r[0][1] == ' '
      && r[0][2..w + 2] == Spaces(w - |ToDecimal(j + 1)|) + ToDecimal(j + 1)
      && r[0][w + 4..] == a[j]
      && r[1][..w + 3] == Spaces(w + 3)
      && r[1][w + 3..] == Carets(|a[j]|)
  {
    var m := Max(|a|, |b|);
    DiffLineLayout('+', j + 1, a[j], m);
    var mk := MarkerLine(Carets(|a[j]|), m);
    assert mk[..Width(m) + 3] == Spaces(Width(m) + 3);
  }

  /** A modification: the "-" line of B, then the "+" line of A, both under the
      number j + 1, then the marker of B's line against A's line, indented
      Width + 3 columns. */
  lemma ModificationRecord(a: seq<string>, b: seq<string>, j: nat)
    requires j < |a| && j < |b| && a[j] != b[j]
    ensures |ToDecimal(j + 1)| <= Width(Max(|a|, |b|))
    ensures var m := Max(|a|, |b|);
      var r, w, num := RecordLines(a, b, j, m), Width(m), Spaces(Width(m) - |ToDecimal(j + 1)|) + ToDecimal(j + 1);
      && |r| == 3
      && r[0][0] == '-' && r[0][2..w + 2] == num && r[0][w + 4..] == b[j]
      && r[1][0] == '+' && r[1][2..w + 2] == num && r[1][w + 4..] == a[j]
      && r[2][..w + 3] == Spaces(w + 3)
      && r[2][w + 3..] == Marker(b[j], a[j])
  {
    var m := Max(|a|, |b|);
    DiffLineLayout('-', j + 1, b[j], m);
    DiffLineLayout('+', j + 1, a[j], m);
    var mk := MarkerLine(Marker(b[j], a[j]), m);
    assert mk[..Width(m) + 3] == Spaces(Width(m) + 3);
  }

  // ---------------------------------------------------------------- reference

  /** Single-pass reference: the indices j in [s, e) whose line differs. */
  ghost function DiffSet(a: seq<string>, b: seq<string>, s: nat, e: nat): set<nat>
    requires e <= |a|
  {
    set j: nat | s <= j < e && Differs(a, b, j)
  }

  /** Number of differing lines in [s, e), counted as the worker counts. */
  function CountDiffs(a: seq<string>, b: seq<string>, s: nat, e: nat): (c: nat)
    requires s <= e <= |a|
    ensures c <= e - s
    decreases e - s
  {
    if e == s then 0 else CountDiffs(a, b, s, e - 1) + (if Differs(a, b, e - 1) then 1 else 0)
  }

  /** The buffer a worker fills for [s, e): the records in ascending line order. */
  function RenderRange(a: seq<string>, b: seq<string>, s: nat, e: nat, maxLineNum: nat): (r: seq<string>)
    requires s <= e <= |a|
    decreases e - s
  {
    if e == s then [] else RenderRange(a, b, s, e - 1, maxLineNum) + RecordLines(a, b, e - 1, maxLineNum)
  }

  /** A buffer holds two or three lines for each counted line. */
  lemma {:induction false} RenderSize(a: seq<string>, b: seq<string>, s: nat, e: nat, m: nat)
    requires s <= e <= |a|
    ensures 2 * CountDiffs(a, b, s, e) <= |RenderRange(a, b, s, e, m)| <= 3 * CountDiffs(a, b, s, e)
    decreases e - s
  {
    if e > s {
      RenderSize(a, b, s, e - 1, m);
    }
  }

  /** The running count is the size of the reference set. */
  lemma {:induction false} CountIsDiffSetSize(a: seq<string>, b: seq<string>, s: nat, e: nat)
    requires s <= e <= |a|
    ensures CountDiffs(a, b, s, e) == |DiffSet(a, b, s, e)|
    decreases e - s
  {
    if e == s {
      assert DiffSet(a, b, s, e) == {};
    } else {
      CountIsDiffSetSize(a, b, s, e - 1);
      DiffSetStep(a, b, s, e);
    }
  }

  /** Rendering two adjacent ranges one after the other renders their union. */
  lemma {:induction false} RenderSplit(a: seq<string>, b: seq<string>, s: nat, k: nat, e: nat, m: nat)
    requires s <= k <= e <= |a|
    ensures RenderRange(a, b, s, k, m) + RenderRange(a, b, k, e, m) == RenderRange(a, b, s, e, m)
    decreases e - k
  {
    if e > k {
      RenderSplit(a, b, s, k, e - 1, m);
    }
  }

  // ---------------------------------------------------------------- worker

  /** The body of one worker thread for the chunk [start, end): for each j
      whose line differs, the record is appended to the buffer and the count
      goes up by one. */
  method CompareChunk(a: seq<string>, b: seq<string>, start: nat, end: nat, maxLineNum: nat)
    returns (buffer: seq<string>, count: nat)
    requires start <= end <= |a|
    ensures count == |DiffSet(a, b, start, end)|
    ensures buffer == RenderRange(a, b, start, end, maxLineNum)
    ensures 2 * count <= |buffer| <= 3 * count
  {
    buffer, count := [], 0;
    for j := start to end
      invariant count == CountDiffs(a, b, start, j)
      invariant buffer == RenderRange(a, b, start, j, maxLineNum)
    {
      if j >= |b| || a[j] != b[j] {
        count := count + 1;
        var record := RenderRecord(a, b, j, maxLineNum);
        buffer := buffer + record;
      } else {
        assert RecordLines(a, b, j, maxLineNum) == [];
      }
    }
    CountIsDiffSetSize(a, b, start, end);
    RenderSize(a, b, start, end, maxLineNum);
  }

  /** The records the worker appends for a differing line j: if B has no
      line j an addition record, if A had no line j a deletion record (that
      branch cannot be reached: every j < end <= |A|), otherwise a
      modification record. */
  method RenderRecord(a: seq<string>, b: seq<string>, j: nat, maxLineNum: nat) returns (record: seq<string>)
    requires j < |a| && Differs(a, b, j)
    ensures record == RecordLines(a, b, j, maxLineNum)
    ensures |record| == (if j >= |b| then 2 else 3)
  {
    if j >= |b| {
      record := [DiffLine('+', j + 1, a[j], maxLineNum), MarkerLine(Carets(|a[j]|), maxLineNum)];
    } else if j >= |a| {
      assert false;
    } else {
      var marker := CreateDiffMarker(b[j], a[j]);
      record := [DiffLine('-', j + 1, b[j], maxLineNum),
                 DiffLine('+', j + 1, a[j], maxLineNum),
                 MarkerLine(marker, maxLineNum)];
    }
  }

  // ---------------------------------------------------------------- driver

  /** order lists the chunk indices in the order their workers finished:
      every chunk of the plan exactly once. */
  predicate IsCompletionOrder(order: seq<nat>, numChunks: nat)
  {
    && (forall k :: 0 <= k < |order| ==> order[k] < numChunks)
    && (forall k, l :: 0 <= k < l < |order| ==> order[k] != order[l])
    && (forall c :: 0 <= c < numChunks ==> c in order)
  }

  /** The buffer of chunk i. */
  function ChunkReport(a: seq<string>, b: seq<string>, i: nat, maxLineNum: nat): (r: seq<string>)
    requires i < NumChunks(|a|)
  {
    var c := LineChunk(i, |a|);
    RenderRange(a, b, c.start, c.end, maxLineNum)
  }

  /** The output: each finished chunk's buffer as one block, in completion order. */
  function ScheduledReport(a: seq<string>, b: seq<string>, order: seq<nat>, maxLineNum: nat): (r: seq<string>)
    requires forall k :: 0 <= k < |order| ==> order[k] < NumChunks(|a|)
  {
    if order == [] then []
    else
      ScheduledReport(a, b, order[..|order| - 1], maxLineNum) +
      ChunkReport(a, b, order[|order| - 1], maxLineNum)
  }

  /** Differing lines that fall in the chunks of done. */
  ghost function DiffsInChunks(a: seq<string>, b: seq<string>, done: set<nat>): set<nat>
  {
    set j: nat | j < |a| && j / CHUNK_SIZE in done && Differs(a, b, j)
  }

  /** Finishing chunk i (not finished before) adds exactly its own differing
      lines, none of which was counted already. */
  lemma FinishChunk(a: seq<string>, b: seq<string>, done: set<nat>, i: nat)
    requires i < NumChunks(|a|) && i !in done
    ensures var c := LineChunk(i, |a|);
      && DiffsInChunks(a, b, done + {i}) == DiffsInChunks(a, b, done) + DiffSet(a, b, c.start, c.end)
      && DiffsInChunks(a, b, done) !! DiffSet(a, b, c.start, c.end)
  {
    var c := LineChunk(i, |a|);
    forall j: nat | j < |a|
      ensures InChunk(c, j) <==> j / CHUNK_SIZE == i
    {
      LineOfChunk(j, i, |a|);
    }
  }

  /** The k-th chunk to finish was not finished before; finishing it adds
      its own count to the total and its buffer to the end of the output. */
  lemma FinishStep(a: seq<string>, b: seq<string>, order: seq<nat>, k: nat, done: set<nat>, m: nat)
    requires IsCompletionOrder(order, NumChunks(|a|))
    requires k < |order|
    requires forall x :: x in done <==> x in order[..k]
    ensures forall x :: x in done + {order[k]} <==> x in order[..k + 1]
    ensures var c := LineChunk(order[k], |a|);
      |DiffsInChunks(a, b, done + {order[k]})| == |DiffsInChunks(a, b, done)| + |DiffSet(a, b, c.start, c.end)|
    ensures ScheduledReport(a, b, order[..k + 1], m) ==
            ScheduledReport(a, b, order[..k], m) + ChunkReport(a, b, order[k], m)
  {
    var i := order[k];
    assert i !in done by {
      assert forall l :: 0 <= l < k ==> order[..k][l] == order[l];
    }
    FinishChunk(a, b, done, i);
    assert order[..k + 1][..k] == order[..k];
    assert order[..k + 1] == order[..k] + [i];
  }

  /** Once every chunk has finished, the counted lines are all differing lines. */
  lemma AllChunksDone(a: seq<string>, b: seq<string>, done: set<nat>)
    requires forall c :: 0 <= c < NumChunks(|a|) ==> c in done
    ensures DiffsInChunks(a, b, done) == DiffSet(a, b, 0, |a|)
  {
    forall j: nat | j < |a|
      ensures j / CHUNK_SIZE in done
    {
      LineOfChunk(j, 0, |a|);
    }
  }

  /** compare_files: one worker per chunk of A's lines; each finished buffer is
      appended whole and each local count added to the total. Whatever order
      the workers finish in, the total is the number of indices j < |A| at
      which B has no line or a different line. */
  method CompareFiles(a: seq<string>, b: seq<string>, order: seq<nat>)
    returns (report: seq<string>, total: nat)
    requires IsCompletionOrder(order, NumChunks(|a|))
    ensures total == |DiffSet(a, b, 0, |a|)|
    ensures report == ScheduledReport(a, b, order, Max(|a|, |b|))
    ensures 2 * total <= |report| <= 3 * total
  {
    var maxLineNum := Max(|a|, |b|);
    report, total := [], 0;
    ghost var done: set<nat> := {};
    for k := 0 to |order|
      invariant forall x :: x in done <==> x in order[..k]
      invariant total == |DiffsInChunks(a, b, done)|
      invariant report == ScheduledReport(a, b, order[..k], maxLineNum)
      invariant 2 * total <= |report| <= 3 * total
    {
      var i := order[k];
      var c := LineChunk(i, |a|);
      var buffer, count := CompareChunk(a, b, c.start, c.end, maxLineNum);
      FinishStep(a, b, order, k, done, maxLineNum);
      report := report + buffer;
      total := total + count;
      done := done + {i};
    }
    assert order[..|order|] == order;
    AllChunksDone(a, b, done);
  }

  // ---------------------------------------------------------------- properties

  /** Chunk indices in plan order: the output a run would give if finished
      buffers were emitted sorted by chunk start. */
  function InPlanOrder(numChunks: nat): (order: seq<nat>)
    ensures |order| == numChunks && forall k :: 0 <= k < numChunks ==> order[k] == k
  {
    seq(numChunks, i => i)
  }

  /** Plan order is one of the possible completion orders. */
  lemma PlanOrderIsCompletionOrder(numChunks: nat)
    ensures IsCompletionOrder(InPlanOrder(numChunks), numChunks)
  {
    var order := InPlanOrder(numChunks);
    forall c | 0 <= c < numChunks
      ensures c in order
    {
      assert order[c] == c;
    }
  }

  /** Emitting the chunk buffers in plan order gives exactly the single-pass
      rendering of [0, |A|). */
  lemma {:induction false} PlanOrderReport(a: seq<string>, b: seq<string>, k: nat, m: nat)
    requires k <= NumChunks(|a|)
    ensures ScheduledReport(a, b, InPlanOrder(k), m) == RenderRange(a, b, 0, Min(k * CHUNK_SIZE, |a|), m)
  {
    if k > 0 {
      var c := LineChunk(k - 1, |a|);
      PlanOrderReport(a, b, k - 1, m);
      assert c.start == Min((k - 1) * CHUNK_SIZE, |a|);
      assert c.end == Min(k * CHUNK_SIZE, |a|);
      PlanOrderStep(a, b, k, m);
      RenderSplit(a, b, 0, c.start, c.end, m);
    }
  }

  /** Emitting the first k chunks in plan order is emitting the first k - 1,
      then chunk k - 1. */
  lemma PlanOrderStep(a: seq<string>, b: seq<string>, k: nat, m: nat)
    requires 0 < k <= NumChunks(|a|)
    ensures ScheduledReport(a, b, InPlanOrder(k), m) ==
            ScheduledReport(a, b, InPlanOrder(k - 1), m) + ChunkReport(a, b, k - 1, m)
  {
    assert InPlanOrder(k)[..k - 1] == InPlanOrder(k - 1);
  }

  /** A range renders no record exactly when none of its lines differs. */
  lemma {:induction false} NoRecordsIffNoDiffs(a: seq<string>, b: seq<string>, s: nat, e: nat, m: nat)
    requires s <= e <= |a|
    ensures RenderRange(a, b, s, e, m) == [] <==> DiffSet(a, b, s, e) == {}
    decreases e - s
  {
    if e > s {
      NoRecordsIffNoDiffs(a, b, s, e - 1, m);
      RecordIffDiffers(a, b, e - 1, m);
      assert RenderRange(a, b, s, e, m) == RenderRange(a, b, s, e - 1, m) + RecordLines(a, b, e - 1, m);
      DiffSetStep(a, b, s, e);
    } else {
      assert DiffSet(a, b, s, e) == {};
    }
  }

  /** Extending a range by one line adds that line to the reference set
      exactly when it differs. */
  lemma DiffSetStep(a: seq<string>, b: seq<string>, s: nat, e: nat)
    requires s < e <= |a|
    ensures DiffSet(a, b, s, e) == DiffSet(a, b, s, e - 1) + (if Differs(a, b, e - 1) then {e - 1} else {})
  {
  }

  /** Identical files: no record is rendered and nothing is counted. */
  lemma IdenticalFilesNoRecords(a: seq<string>, s: nat, e: nat, m: nat)
    requires s <= e <= |a|
    ensures RenderRange(a, a, s, e, m) == []
    ensures DiffSet(a, a, s, e) == {}
  {
    assert DiffSet(a, a, s, e) == {};
    NoRecordsIffNoDiffs(a, a, s, e, m);
  }

  /** The total is zero exactly when A is a prefix of B: lines of B past |A|
      never count, so B may be longer than A and still compare equal. */
  lemma NoDifferencesIffPrefix(a: seq<string>, b: seq<string>)
    ensures |DiffSet(a, b, 0, |a|)| == 0 <==> |a| <= |b| && a == b[..|a|]
  {
    if |a| <= |b| && a == b[..|a|] {
      assert DiffSet(a, b, 0, |a|) == {};
    } else if |a| > |b| {
      assert |b| in DiffSet(a, b, 0, |a|);
    } else {
      var j :| 0 <= j < |a| && a[j] != b[..|a|][j];
      assert j in DiffSet(a, b, 0, |a|);
    }
  }

  /** Lines of B at indices >= |A| are never visited: their contents never
      matter, and how many there are matters only through the width of the
      line-number field, Width(max(|A|, |B|)). Two second files that agree on
      their first |A| lines count the same lines, and render the same records
      whenever their line-number fields are equally wide. */
  lemma {:induction false} TrailingLinesOfBIgnored(a: seq<string>, b: seq<string>, b': seq<string>)
    requires |a| <= |b| && |a| <= |b'|
    requires b[..|a|] == b'[..|a|]
    ensures DiffSet(a, b, 0, |a|) == DiffSet(a, b', 0, |a|)
    ensures Width(Max(|a|, |b|)) == Width(Max(|a|, |b'|)) ==>
              RenderRange(a, b, 0, |a|, Max(|a|, |b|)) == RenderRange(a, b', 0, |a|, Max(|a|, |b'|))
  {
    AgreeBelow(a, b, b');
    SameDiffs(a, b, b');
    if Width(Max(|a|, |b|)) == Width(Max(|a|, |b'|)) {
      RenderAgree(a, b, b', |a|, Max(|a|, |b|), Max(|a|, |b'|));
    }
  }

  /** Second files with the same first |A| lines agree line by line below |A|. */
  lemma AgreeBelow(a: seq<string>, b: seq<string>, b': seq<string>)
    requires |a| <= |b| && |a| <= |b'|
    requires b[..|a|] == b'[..|a|]
    ensures forall j :: 0 <= j < |a| ==> b[j] == b'[j]
  {
    forall j | 0 <= j < |a|
      ensures b[j] == b'[j]
    {
      assert b[j] == b[..|a|][j];
    }
  }

  /** Second files that agree below |A| count the same lines of A. */
  lemma {:induction false} SameDiffs(a: seq<string>, b: seq<string>, b': seq<string>)
    requires |a| <= |b| && |a| <= |b'|
    requires forall j :: 0 <= j < |a| ==> b[j] == b'[j]
    ensures DiffSet(a, b, 0, |a|) == DiffSet(a, b', 0, |a|)
  {
    forall j: nat | j < |a|
      ensures Differs(a, b, j) == Differs(a, b', j)
    {
    }
  }

  /** Two second files that agree on the lines a range visits, rendered with
      equally wide line-number fields, give the same records. */
  lemma {:induction false} RenderAgree(a: seq<string>, b: seq<string>, b': seq<string>, e: nat, m: nat, m': nat)
    requires e <= |a| && e <= |b| && e <= |b'|
    requires forall j :: 0 <= j < e ==> b[j] == b'[j]
    requires Width(m) == Width(m')
    ensures RenderRange(a, b, 0, e, m) == RenderRange(a, b', 0, e, m')
  {
    if e > 0 {
      RenderAgree(a, b, b', e - 1, m, m');
      RecordAgree(a, b, b', e - 1, m, m');
    }
  }

  /** The records of one line depend on the maximum only through its width. */
  lemma RecordAgree(a: seq<string>, b: seq<string>, b': seq<string>, j: nat, m: nat, m': nat)
    requires j < |a| && j < |b| && j < |b'| && b[j] == b'[j]
    requires Width(m) == Width(m')
    ensures RecordLines(a, b, j, m) == RecordLines(a, b', j, m')
  {
    assert DiffLine('-', j + 1, b[j], m) == DiffLine('-', j + 1, b[j], m');
    assert DiffLine('+', j + 1, a[j], m) == DiffLine('+', j + 1, a[j], m');
    assert MarkerLine(Marker(b[j], a[j]), m) == MarkerLine(Marker(b[j], a[j]), m');
  }

  /** The number of B's trailing lines can change the records: A = ["x"]
      against B = ["y"] numbers its lines in a 1-column field, against "y"
      followed by nine more lines in a 2-column field. */
  lemma TrailingLineCountWidensField()
    ensures var a, b, b' := ["x"], ["y"], ["y"] + seq(9, _ => "z");
      && b[..|a|] == b'[..|a|]
      && RenderRange(a, b, 0, 1, Max(|a|, |b|)) != RenderRange(a, b', 0, 1, Max(|a|, |b'|))
  {
    var a, b, b' := ["x"], ["y"], ["y"] + seq(9, _ => "z");
    assert b[..1] == b'[..1];
    assert ToDecimal(1) == "1";
    assert ToDecimal(10) == ToDecimal(1) + [Digit(0)];
    var r, r' := RenderRange(a, b, 0, 1, 1), RenderRange(a, b', 0, 1, 10);
    assert r == RecordLines(a, b, 0, 1);
    assert r' == RecordLines(a, b', 0, 10);
    assert |r[0]| != |r'[0]|;
  }
}

=== FILE: line_split.dfy ===
/** How the line diff turns a file's contents into lines (read_file): repeated
    std::getline with the default '\n' delimiter, applied here to the contents
    as an in-memory string. Each call takes the characters up to the next
    '\n', consumes that '\n' without storing it, and fails only when it is
    already at the end of the text; so a final line without a trailing
    newline is kept, and no empty line is invented after a final newline. */
module LineSplit {
  import opened Chunking

  const NEWLINE: char := '\n'

  /** The lines that the read_file loop collects from text. */
  function SplitLines(text: string): (lines: seq<string>)
    decreases |text|
  {
    if text == [] then []
    else
      var k := NextIndex(text, NEWLINE, 0);
      [text[..k]] + (if k < |text| then SplitLines(text[k + 1..]) else [])
  }

  /** No line that getline yields contains the delimiter. */
  lemma {:induction false} SplitLinesHaveNoNewline(text: string)
    ensures forall i :: 0 <= i < |SplitLines(text)| ==> NEWLINE !in SplitLines(text)[i]
    decreases |text|
  {
    if text != [] {
      var k := NextIndex(text, NEWLINE, 0);
      var lines := SplitLines(text);
      assert NEWLINE !in text[..k];
      if k < |text| {
        SplitLinesHaveNoNewline(text[k + 1..]);
        assert lines == [text[..k]] + SplitLines(text[k + 1..]);
      } else {
        assert lines == [text[..k]];
      }
    }
  }

  /** Writing the lines back, each followed by '\n'. */
  function JoinLines(lines: seq<string>): string
  {
    if lines == [] then [] else lines[0] + [NEWLINE] + JoinLines(lines[1..])
  }

  /** Joining then splitting gives back the lines, as long as none of them
      holds a '\n' (empty lines included). */
  lemma {:induction false} SplitJoin(lines: seq<string>)
    requires forall i :: 0 <= i < |lines| ==> NEWLINE !in lines[i]
    ensures SplitLines(JoinLines(lines)) == lines
  {
    if lines != [] {
      var l := lines[0];
      var rest := JoinLines(lines[1..]);
      var text := JoinLines(lines);
      assert text == l + [NEWLINE] + rest;
      assert text[|l|] == NEWLINE;
      var k := NextIndex(text, NEWLINE, 0);
      assert forall p :: 0 <= p < |l| ==> text[p] == l[p];
      NextNewlineIs(text, 0, |l|);
      assert text[..k] == l;
      assert text[k + 1..] == rest;
      SplitJoin(lines[1..]);
      assert lines == [l] + lines[1..];
    }
  }

  /** Splitting then joining gives back the text, with a '\n' added at the end
      when the text's last line had none. */
  lemma {:induction false} JoinSplit(text: string)
    ensures JoinLines(SplitLines(text)) == Terminated(text)
    decreases |text|
  {
    if text != [] {
      var k := NextIndex(text, NEWLINE, 0);
      if k < |text| {
        JoinSplit(text[k + 1..]);
        JoinSplitStep(text, k);
      } else {
        assert text[..k] == text;
        assert SplitLines(text) == [text];
        JoinCons(text, []);
      }
    }
  }

  /** The text with a '\n' added when it is non-empty and does not already
      end in one. */
  function Terminated(text: string): string
  {
    if text == [] || text[|text| - 1] == NEWLINE then text else text + [NEWLINE]
  }

  /** One step of JoinSplit: the first line, its '\n', and the rest. */
  lemma JoinSplitStep(text: string, k: nat)
    requires k < |text| && k == NextIndex(text, NEWLINE, 0)
    requires JoinLines(SplitLines(text[k + 1..])) == Terminated(text[k + 1..])
    ensures JoinLines(SplitLines(text)) == Terminated(text)
  {
    var head, tail := text[..k], text[k + 1..];
    SplitLinesUnfold(text, k);
    JoinCons(head, SplitLines(tail));
    TerminatedAt(text, k);
  }

  /** Terminating a text whose position k holds a '\n'. */
  lemma TerminatedAt(text: string, k: nat)
    requires k < |text| && text[k] == NEWLINE
    ensures Terminated(text) == text[..k] + [NEWLINE] + Terminated(text[k + 1..])
  {
    CutAt(text, k);
    TerminatedAfterNewline(text[..k], text[k + 1..]);
  }

  /** A text is the part before position k, the character at k, and the rest. */
  lemma CutAt(text: string, k: nat)
    requires k < |text|
    ensures text == text[..k] + [text[k]] + text[k + 1..]
  {
    assert text[k..] == [text[k]] + text[k + 1..];
    assert text == text[..k] + text[k..];
  }

  /** Terminating a text that has a '\n' before its last part. */
  lemma TerminatedAfterNewline(head: string, tail: string)
    ensures Terminated(head + [NEWLINE] + tail) == head + [NEWLINE] + Terminated(tail)
  {
    var text := head + [NEWLINE] + tail;
    if tail != [] {
      assert text[|text| - 1] == tail[|tail| - 1];
      if tail[|tail| - 1] != NEWLINE {
        assert head + [NEWLINE] + (tail + [NEWLINE]) == text + [NEWLINE];
      }
    }
  }

  /** Joining a first line and the rest. */
  lemma JoinCons(line: string, rest: seq<string>)
    ensures JoinLines([line] + rest) == line + [NEWLINE] + JoinLines(rest)
  {
    assert ([line] + rest)[1..] == rest;
  }

  /** The first '\n' at or after start, found by stepping over non-newlines. */
  lemma NextNewlineIs(text: string, start: nat, k: nat)
    requires start <= k <= |text|
    requires forall p :: start <= p < k ==> text[p] != NEWLINE
    requires k < |text| ==> text[k] == NEWLINE
    ensures NextIndex(text, NEWLINE, start) == k
  {
  }

  /** One getline call on the text from start, where k is the next '\n' (or
      the end): the line text[start..k], then the lines after the delimiter. */
  lemma SplitLinesFrom(text: string, start: nat, k: nat)
    requires start < |text|
    requires k == NextIndex(text, NEWLINE, start)
    ensures SplitLines(text[start..]) == [text[start..k]] + SplitLines(text[if k < |text| then k + 1 else k..])
  {
    var rest := text[start..];
    NextNewlineShift(text, start, k);
    SplitLinesUnfold(rest, k - start);
    SlicesShift(text, start, k);
  }

  /** The next '\n' of a suffix is the next '\n' of the whole text, shifted. */
  lemma NextNewlineShift(text: string, start: nat, k: nat)
    requires start <= |text|
    requires k == NextIndex(text, NEWLINE, start)
    ensures NextIndex(text[start..], NEWLINE, 0) == k - start
  {
    NextNewlineIs(text[start..], 0, k - start);
  }

  /** One unfolding of SplitLines on a non-empty text. */
  lemma SplitLinesUnfold(rest: string, j: nat)
    requires rest != [] && j == NextIndex(rest, NEWLINE, 0)
    ensures SplitLines(rest) == [rest[..j]] + SplitLines(rest[if j < |rest| then j + 1 else j..])
  {
    if j < |rest| {
      assert SplitLines(rest) == [rest[..j]] + SplitLines(rest[j + 1..]);
    } else {
      assert SplitLines(rest) == [rest[..j]];
      assert SplitLines(rest[j..]) == [];
    }
  }

  /** Slices of a suffix are slices of the text, shifted by start. */
  lemma SlicesShift(text: string, start: nat, k: nat)
    requires start <= k <= |text|
    ensures text[start..][..k - start] == text[start..k]
    ensures text[start..][if k < |text| then k - start + 1 else k - start..] == text[if k < |text| then k + 1 else k..]
  {
  }

  /** std::getline at position pos of a text that is not yet exhausted: the
      characters up to the next '\n' (or the end) form the line, and reading
      resumes after that '\n'. */
  method GetLine(text: string, pos: nat) returns (line: string, next: nat)
    requires pos < |text|
    ensures pos < next <= |text|
    ensures SplitLines(text[pos..]) == [line] + SplitLines(text[next..])
  {
    var k := pos;
    line := "";
    while k < |text| && text[k] != NEWLINE
      invariant pos <= k <= |text|
      invariant line == text[pos..k]
      invariant forall p :: pos <= p < k ==> text[p] != NEWLINE
    {
      line := line + [text[k]];
      k := k + 1;
    }
    NextNewlineIs(text, pos, k);
    SplitLinesFrom(text, pos, k);
    next := if k < |text| then k + 1 else k;
  }

  /** read_file on in-memory contents: while getline succeeds, push the line. */
  method ReadLines(text: string) returns (lines: seq<string>)
    ensures lines == SplitLines(text)
  {
    lines := [];
    var pos := 0;
    while pos < |text|
      invariant pos <= |text|
      invariant lines + SplitLines(text[pos..]) == SplitLines(text)
      decreases |text| - pos
    {
      var line;
      line, pos := GetLine(text, pos);
      lines := lines + [line];
    }
    assert text[pos..] == [];
  }
}

=== FILE: marker.dfy ===
/** The character-level mismatch marker of the line diff (create_diff_marker):
    a string of spaces and carets as long as the longer of two lines, with a
    caret wherever the lines differ and at every position past the shorter. */
module DiffMarker {
  import opened Chunking

  const CARET: char := '^'
  const SPACE: char := ' '

  /** std::string(n, '^') */
  function Carets(n: nat): (r: string)
    ensures |r| == n && forall i :: 0 <= i < n ==> r[i] == CARET
  {
    seq(n, _ => CARET)
  }

  /** std::string(n, ' ') */
  function Spaces(n: nat): (r: string)
    ensures |r| == n && forall i :: 0 <= i < n ==> r[i] == SPACE
  {
    seq(n, _ => SPACE)
  }

  /** Reference definition of the marker, one position at a time: compare the
      heads while both strings last, then carets for whatever is left over. */
  function Marker(s1: string, s2: string): (m: string)
    ensures |m| == Max(|s1|, |s2|)
    decreases |s1|
  {
    if s1 == [] then Carets(|s2|)
    else if s2 == [] then Carets(|s1|)
    else [if s1[0] == s2[0] then SPACE else CARET] + Marker(s1[1..], s2[1..])
  }

  /** What position i of the marker holds: a space exactly where both strings
      have a character there and the two agree, a caret everywhere else. */
  lemma {:induction false} MarkerAt(s1: string, s2: string, i: nat)
    requires i < Max(|s1|, |s2|)
    ensures Marker(s1, s2)[i] == (if i < |s1| && i < |s2| && s1[i] == s2[i] then SPACE else CARET)
    decreases |s1|
  {
    if s1 != [] && s2 != [] && i > 0 {
      MarkerAt(s1[1..], s2[1..], i - 1);
    }
  }

  /** Inside the common prefix the marker flags exactly the differing positions;
      past it (when the lengths differ) every position is a caret. */
  lemma MarkerShape(s1: string, s2: string)
    ensures forall i :: 0 <= i < Min(|s1|, |s2|) ==>
              (Marker(s1, s2)[i] == CARET <==> s1[i] != s2[i]) &&
              (Marker(s1, s2)[i] == SPACE <==> s1[i] == s2[i])
    ensures forall i :: Min(|s1|, |s2|) <= i < Max(|s1|, |s2|) ==> Marker(s1, s2)[i] == CARET
  {
    forall i | 0 <= i < Max(|s1|, |s2|)
      ensures Marker(s1, s2)[i] == (if i < |s1| && i < |s2| && s1[i] == s2[i] then SPACE else CARET)
    {
      MarkerAt(s1, s2, i);
    }
  }

  /** Swapping the two strings gives the same marker. */
  lemma {:induction false} MarkerSymmetric(s1: string, s2: string)
    ensures Marker(s1, s2) == Marker(s2, s1)
    decreases |s1|
  {
    if s1 != [] && s2 != [] {
      MarkerSymmetric(s1[1..], s2[1..]);
    }
  }

  /** The marker is all spaces exactly when the two strings are equal. */
  lemma {:induction false} MarkerBlankIffEqual(s1: string, s2: string)
    ensures Marker(s1, s2) == Spaces(Max(|s1|, |s2|)) <==> s1 == s2
    decreases |s1|
  {
    if s1 != [] && s2 != [] {
      MarkerBlankIffEqual(s1[1..], s2[1..]);
      var n := Max(|s1|, |s2|);
      var head: char := if s1[0] == s2[0] then SPACE else CARET;
      var tail := Marker(s1[1..], s2[1..]);
      assert Marker(s1, s2) == [head] + tail;
      assert Spaces(n) == [SPACE] + Spaces(n - 1);
      assert Marker(s1, s2) == Spaces(n) <==> head == SPACE && tail == Spaces(n - 1) by {
        if Marker(s1, s2) == Spaces(n) {
          assert Marker(s1, s2)[0] == Spaces(n)[0];
          assert Marker(s1, s2)[1..] == Spaces(n)[1..];
        }
      }
      assert s1 == s2 <==> s1[0] == s2[0] && s1[1..] == s2[1..] by {
        if s1[0] == s2[0] && s1[1..] == s2[1..] {
          assert s1 == [s1[0]] + s1[1..];
          assert s2 == [s2[0]] + s2[1..];
        }
      }
    } else if s1 != [] {
      assert Marker(s1, s2)[0] == CARET;
    } else if s2 != [] {
      assert Marker(s1, s2)[0] == CARET;
    }
  }

  /** create_diff_marker: allocate a blank buffer of the longer length, put a
      caret at each differing position of the common prefix, then, when the
      lengths differ, fill the rest of the buffer with carets. */
  method CreateDiffMarker(s1: string, s2: string) returns (marker: string)
    ensures marker == Marker(s1, s2)
  {
    var n := Max(|s1|, |s2|);
    var k := Min(|s1|, |s2|);
    var buf := new char[n](_ => SPACE);
    var i := 0;
    while i < k
      invariant 0 <= i <= k
      invariant forall p :: 0 <= p < i ==> buf[p] == (if s1[p] != s2[p] then CARET else SPACE)
      invariant forall p :: i <= p < n ==> buf[p] == SPACE
    {
      if s1[i] != s2[i] {
        buf[i] := CARET;
      }
      i := i + 1;
    }
    if |s1| != |s2| {
      var p := k;
      while p < n
        invariant k <= p <= n
        invariant forall q :: 0 <= q < k ==> buf[q] == (if s1[q] != s2[q] then CARET else SPACE)
        invariant forall q :: k <= q < p ==> buf[q] == CARET
      {
        buf[p] := CARET;
        p := p + 1;
      }
    }
    marker := buf[..];
    forall q | 0 <= q < n
      ensures marker[q] == Marker(s1, s2)[q]
    {
      MarkerAt(s1, s2, q);
    }
  }
}

=== FILE: report_format.dfy ===
/** Layout of the line-diff report: line numbers printed in decimal
    (std::to_string), right-aligned with std::setw to the digit count of the
    larger file's line count, and marker lines indented by that width plus 3. */
module ReportFormat {
  import opened Chunking
  import opened DiffMarker

  predicate IsDigit(c: char) { '0' <= c <= '9' }

  predicate IsDigits(s: string) { forall i :: 0 <= i < |s| ==> IsDigit(s[i]) }

  function Digit(d: nat): (c: char)
    requires d < 10
    ensures IsDigit(c) && (c as int) - ('0' as int) == d
  {
    (('0' as int) + d) as char
  }

  /** std::to_string on an unsigned value: its decimal digits, most significant
      first, with no leading zero. */
  function ToDecimal(n: nat): (s: string)
    ensures |s| >= 1 && IsDigits(s)
    ensures s[0] == '0' ==> n == 0
  {
    if n < 10 then [Digit(n)] else ToDecimal(n / 10) + [Digit(n % 10)]
  }

  /** The number a string of decimal digits denotes. */
  function DecimalValue(s: string): nat
    requires IsDigits(s)
  {
    if s == [] then 0 else DecimalValue(s[..|s| - 1]) * 10 + ((s[|s| - 1] as int) - ('0' as int))
  }

  /** Reading the printed digits back gives the number. */
  lemma {:induction false} DecimalRoundTrip(n: nat)
    ensures DecimalValue(ToDecimal(n)) == n
  {
    if n >= 10 {
      DecimalRoundTrip(n / 10);
      var s := ToDecimal(n);
      assert s[..|s| - 1] == ToDecimal(n / 10);
    }
  }

  /** A larger number never has fewer digits. */
  lemma {:induction false} DigitCountMonotone(n: nat, m: nat)
    requires n <= m
    ensures |ToDecimal(n)| <= |ToDecimal(m)|
  {
    if n >= 10 {
      DigitCountMonotone(n / 10, m / 10);
    }
  }

  function Pow10(k: nat): (p: nat)
    ensures p >= 1
  {
    if k == 0 then 1 else 10 * Pow10(k - 1)
  }

  /** A number with k digits lies in [10^(k-1), 10^k) (0 has one digit). */
  lemma {:induction false} DigitCountBounds(n: nat)
    ensures n < Pow10(|ToDecimal(n)|)
    ensures |ToDecimal(n)| > 1 ==> Pow10(|ToDecimal(n)| - 1) <= n
  {
    if n >= 10 {
      DigitCountBounds(n / 10);
      var k := |ToDecimal(n / 10)|;
      assert |ToDecimal(n)| == k + 1;
      assert Pow10(k + 1) == 10 * Pow10(k);
      if k > 1 {
        assert Pow10(k) == 10 * Pow10(k - 1);
      }
    }
  }

  /** Column width of the line-number field: std::to_string(max_line_num).length(),
      the number of decimal digits of the maximum. */
  function Width(maxLineNum: nat): (w: nat)
    ensures w >= 1
    ensures maxLineNum < Pow10(w)
    ensures w > 1 ==> Pow10(w - 1) <= maxLineNum
  {
    DigitCountBounds(maxLineNum);
    |ToDecimal(maxLineNum)|
  }

  /** std::setw(w) with the default fill and right alignment: pad on the left
      with spaces to width w; a longer value is printed whole. */
  function PadLeft(s: string, w: nat): (r: string)
    ensures |r| == Max(|s|, w)
  {
    if |s| >= w then s else Spaces(w - |s|) + s
  }

  /** The padded value ends with the value itself, after spaces only. */
  lemma PadLeftShape(s: string, w: nat)
    ensures var r := PadLeft(s, w);
      r[|r| - |s|..] == s && r[..|r| - |s|] == Spaces(|r| - |s|)
  {
    var r := PadLeft(s, w);
    if |s| < w {
      assert r == Spaces(w - |s|) + s;
      assert r[|r| - |s|..] == s;
      assert r[..|r| - |s|] == Spaces(w - |s|);
    } else {
      assert r[..0] == [];
    }
  }

  /** print_diff_line: prefix, a space, the padded line number, ": ", the line. */
  function DiffLine(prefix: char, lineNum: nat, line: string, maxLineNum: nat): (r: string)
    ensures |r| == Max(|ToDecimal(lineNum)|, Width(maxLineNum)) + 4 + |line|
    ensures r[0] == prefix && r[1] == ' '
  {
    [prefix, ' '] + PadLeft(ToDecimal(lineNum), Width(maxLineNum)) + ": " + line
  }

  /** print_marker_line: Width + 3 spaces, then the marker. */
  function MarkerLine(marker: string, maxLineNum: nat): (r: string)
    ensures |r| == Width(maxLineNum) + 3 + |marker|
    ensures r[..Width(maxLineNum) + 3] == Spaces(Width(maxLineNum) + 3)
    ensures r[Width(maxLineNum) + 3..] == marker
  {
    Spaces(Width(maxLineNum) + 3) + marker
  }

  /** The parts of a diff line with a field of w columns: prefix and space,
      the field, ": ", the line. */
  lemma DiffLineParts(prefix: char, field: string, line: string, w: nat)
    requires |field| == w
    ensures var r := [prefix, ' '] + field + ": " + line;
      && |r| == w + 4 + |line|
      && r[0] == prefix && r[1] == ' '
      && r[2..w + 2] == field
      && r[w + 2..w + 4] == ": "
      && r[w + 4..] == line
  {
    var r := [prefix, ' '] + field + ": " + line;
    assert r[2..w + 2] == field by {
      assert forall i :: 0 <= i < w ==> r[2..w + 2][i] == field[i];
    }
    assert r[w + 4..] == line by {
      assert forall i :: 0 <= i < |line| ==> r[w + 4..][i] == line[i];
    }
  }

  /** A number no larger than the maximum fills its field exactly: spaces on
      the left, then its digits. */
  lemma PaddedNumber(n: nat, m: nat)
    requires n <= m
    ensures |ToDecimal(n)| <= Width(m)
    ensures |PadLeft(ToDecimal(n), Width(m))| == Width(m)
    ensures PadLeft(ToDecimal(n), Width(m)) == Spaces(Width(m) - |ToDecimal(n)|) + ToDecimal(n)
  {
    DigitCountMonotone(n, m);
  }

  /** For a line number no larger than the maximum, a diff line has a fixed
      layout: the prefix, a space, the number right-aligned in a field of
      exactly Width columns, ": ", and the line text from column Width + 4. */
  lemma DiffLineLayout(prefix: char, n: nat, line: string, m: nat)
    requires n <= m
    ensures |ToDecimal(n)| <= Width(m)
    ensures var r, w := DiffLine(prefix, n, line, m), Width(m);
      && |r| == w + 4 + |line|
      && r[0] == prefix && r[1] == ' '
      && r[2..w + 2] == Spaces(w - |ToDecimal(n)|) + ToDecimal(n)
      && r[w + 2..w + 4] == ": "
      && r[w + 4..] == line
  {
    PaddedNumber(n, m);
    DiffLineParts(prefix, PadLeft(ToDecimal(n), Width(m)), line, Width(m));
  }

  /** The marker of a record starts one column to the LEFT of the line text it
      annotates: the marker line is indented Width + 3 columns while the text
      of a diff line starts at column Width + 4, so marker character k is
      printed under line character k - 1. */
  lemma MarkerOneColumnLeftOfText(prefix: char, n: nat, line: string, marker: string, m: nat, k: nat)
    requires n <= m
    requires k < |line| && k < |marker|
    ensures var w := Width(m);
      && MarkerLine(marker, m)[w + 3 + k] == marker[k]
      && DiffLine(prefix, n, line, m)[w + 4 + k] == line[k]
      && MarkerLine(marker, m)[..w + 3] == Spaces(w + 3)
  {
    DiffLineLayout(prefix, n, line, m);
    var w := Width(m);
    var r := DiffLine(prefix, n, line, m);
    assert r[w + 4 + k] == r[w + 4..][k];
  }
}
